=== FILE: README.md ===
# YouTube Shorts pipeline — a Dafny model

This project models the logic of a small YouTube Shorts automation tool.
- A watcher hands every new audio file in `media/music/to_process` to a handler (`ShortsFileHandler`).
- The handler reads the file's tags and renders a vertical 1080×1920 Short with the audio.
- It uploads the Short and records the upload in a JSON history log.
- It then moves the audio file to `media/music/processed`.
- The history log keeps the pipeline idempotent: a file name already in it is never processed again.

The model has six modules:

- `Wrappers` (wrappers.dfy): `Option` and `Exit`. `Exit` is a Python call that returns or raises, usable with `:-`.
- `Paths` (paths.dfy): `posixpath.basename`, `splitext` and `join`, `str.endswith`, and the directory layout of config.py. The layout is a function of the base directory, which is only known at run time.
- `VideoCreator` (video_creator.dfy): `ChillMusicVideoCreator` and `ShortsVideoCreator`. It models their input checks, audio trimming, the integer resize/centre-crop geometry, the layer list, and the return/raise/cleanup contract. The media libraries' answers are an input (`Media`).
- `VideoEffects` (video_effects.dfy): `apply_effects`, `get_available_effects` and `apply_fade`. A clip is modelled as its source plus the trace of filters applied to it.
- `YouTubeUploader` (youtube_uploader.dfy): the request `upload_video` builds, its chunk loop over a finite sequence of SDK outcomes, and the response projection of `get_upload_progress`.
- `AutoUploader` (auto_uploader.dfy): the handler.
  - The handler is an immutable record: in-memory history, log on disk, regular files.
  - `on_created` is a pure step. It returns the new handler, the calls made to the renderer and uploader, and an outcome.
  - The tag reader, renderer, uploader, clock, log write and rename are oracle values in `Env`.
  - Runs of events are folds of the step.

## Model

| member | source | states |
|---|---|---|
| Paths.Basename | auto_uploader.py:57 | The result has no '/', is a suffix of the path, and is preceded by '/' whenever it is shorter than the path, so it is exactly the text after the last '/'. |
| Paths.SplitExt | auto_uploader.py:47 | The two parts concatenate back to the name. There is an extension iff the last '.' comes after the last '/' with some non-dot character between them. The extension then starts at that last '.', so it holds no other '.' and no '/'. |
| Paths.SplitExtExamples | auto_uploader.py:42-47 | Matches CPython's `splitext` on four cases: `track.mp3`, a double extension (only the last is split), a leading-dot name (no extension), and a name without a dot. The handler never passes a dotless name, since only `.mp3`/`.wav`/`.m4a` files reach it. |
| Paths.BasenameOfJoin | auto_uploader.py:99-100 | Joining a directory and a non-empty, slash-free name and taking the basename gives back the name. So a file moved to `PROCESSED_DIR/<filename>` keeps its name. |
| Paths.ToProcessIsNotProcessed | auto_uploader.py:13-14 | For every base directory, a name joined onto the to-process directory and onto the processed directory gives two different paths. So archiving a file really moves it out of the watched directory. |
| VideoCreator.NewCreator | music_video_creator.py:110-117 | An explicit non-empty background path is kept as given. Otherwise the creator succeeds iff `BACKGROUNDS_DIR/default_bg.jpg` exists: it uses that path, or raises FileNotFoundError naming it. |
| VideoCreator.Trim | music_video_creator.py:127-130 | The Short's duration is the minimum of the audio duration and `max_duration`. |
| VideoCreator.IntOfQuotient | music_video_creator.py:139 | Python's `int(n / d)` on an exact quotient. For non-negative `n` and positive `d` it is the floor: `q*d <= n < (q+1)*d`. |
| VideoCreator.CentredSpan | music_video_creator.py:142-143 | The span `(c - t//2, c + t//2)` around `c = length//2` lies within `[0, length]`, has width exactly `t`, and leaves equal margins, or one more pixel on the far side when `length` is odd. |
| VideoCreator.WideWidth | music_video_creator.py:137-139 | For a wide image (`16w > 9h`), the scaled width `floor(1920*w/h)` is at least 1080. |
| VideoCreator.TallHeight | music_video_creator.py:144-146 | For a tall image, the scaled height `floor(1080*h/w)` is at least 1920. |
| VideoCreator.WideBackground | music_video_creator.py:137-143 | Wide branch: the image is resized to height 1920 and width `floor(1920*w/h)` (at least 1080). The crop box lies inside it, is exactly 1080×1920, starts at the top, and is horizontally centred, with an odd pixel left over on the right. |
| VideoCreator.TallBackground | music_video_creator.py:144-150 | Tall branch: the image is resized to width 1080 and height `floor(1080*h/w)` (at least 1920). The crop box lies inside it, is exactly 1080×1920, starts at the left edge, and is vertically centred, with an odd pixel left over at the bottom. |
| VideoCreator.ShortsBackground | music_video_creator.py:137-150 | A background exists iff width and height are both positive (otherwise the ratio divides by zero). The branch is chosen by the exact test `16w > 9h`. The crop is always inside and exactly 1080×1920. |
| VideoCreator.ShortLayers | music_video_creator.py:157-174 | The background comes first. A title layer (font 80, y 0.1) follows iff the title is non-empty, then a caption layer (font 50, y 0.85) iff the caption is non-empty. The count is 1 + [title] + [caption], and every layer lasts the whole Short. |
| VideoCreator.ChillLayers | music_video_creator.py:55-77 | Same pattern for the landscape video, with title (y 0.4) and artist (y 0.5) in the caller's sizes and colour. |
| VideoCreator.CreateShort | music_video_creator.py:119-209 | Covers four things. (1) A missing audio file and then a missing background raise FileNotFoundError before any work, leaving `temp_bg.jpg` as it was. (2) It raises iff an input is missing. (3) Once past the checks, `temp_bg.jpg` never remains. (4) It returns True iff every library step succeeds on an image of positive size, and then writes a 30 fps video with the trimmed duration, the resize and centre crop `ShortsBackground` gives for the image (a 1080×1920 box inside the resized image), and `ShortLayers`; otherwise it returns False. |
| VideoCreator.CreateVideo | music_video_creator.py:33-107 | The same input checks. Once past them, `temp_bg.jpg` never remains. It returns iff the libraries open both inputs, the image has a positive width, both target sides are at least one pixel (`width >= 1` and `h*width >= w`), and the write succeeds. Every other failure re-raises as a library error. On success the background has exactly the requested width and height `floor(h*width/w)`, with no crop and `ChillLayers`. |
| VideoEffects.ApplyFade | video_effects.py:6-8 | Appends a fade-out and then a fade-in with the same duration, leaving the earlier trace untouched. |
| VideoEffects.AvailableMatchesTable | video_effects.py:73-82 | The names `get_available_effects` lists are exactly the names of the parameter-default table. |
| VideoEffects.DispatchEnabled | video_effects.py:93-112 | For a known name with `enabled` truthy, one branch of the `if`/`elif` chain applies exactly the filters of that effect. Each parameter comes from the entry or takes the effect's default. |
| VideoEffects.DispatchMatchesTable | video_effects.py:93-112 | The `if`/`elif` chain equals the table-driven reference. A disabled entry (absent `enabled` counts as false) or an unknown name leaves the clip unchanged. |
| VideoEffects.DispatchableIffAvailable | video_effects.py:71-112 | A name can change a clip iff `get_available_effects` lists it. An unlisted name never changes a clip, whatever its parameters. |
| VideoEffects.SkippedEntryIrrelevant | video_effects.py:92-112 | Removing a disabled or unknown entry from anywhere in the configuration does not change the effects it requests. |
| VideoEffects.DispatchEntry | video_effects.py:92-112 | One round of the loop appends exactly the filters the entry requests. |
| VideoEffects.ApplyEffects | video_effects.py:85-114 | The result keeps the clip's source. Its trace is the input trace followed by the filters of the known, enabled entries, in configuration order. An empty configuration returns the clip unchanged. |
| VideoEffects.DefaultsOfEnabledEffects | video_effects.py:94-112 | With only `enabled` given, the defaults are fade 1.0, zoom 1.3, blur 3, brightness 1.2, vignette 0.8, colour "blue"/0.3 and wave 20/10. Mirror takes none. |
| YouTubeUploader.BodyJson | youtube_uploader.py:73-85 | The request body is a JSON object whose keys are exactly `snippet` and `status`. |
| YouTubeUploader.RequestShape | youtube_uploader.py:71-88 | The body carries the caller's title, description, category, privacy and notify flag. `tags=None` is sent as `[]` and given tags element by element. `selfDeclaredMadeForKids` is always false, and `part` is exactly `"snippet,status"`. |
| YouTubeUploader.ChunkLoop | youtube_uploader.py:97-111 | The loop stops at the first chunk that is neither "in progress" nor an HTTP 500/502/503/504. It returns that chunk's response, or raises its error. It is still sending iff every chunk so far was skippable. |
| YouTubeUploader.TransientErrorsNeverEnd | youtube_uploader.py:98-107 | There is no retry bound: after any number of transient server errors the loop is still sending. |
| YouTubeUploader.UploadVideo | youtube_uploader.py:47-111 | A missing file raises FileNotFoundError before authentication or any request. Authentication happens iff the file exists and no client exists yet. A request is built iff the file exists and a client is available, and it carries exactly the caller's fields with media `(path, chunksize -1, resumable)`. The upload's end is the chunk loop's end. |
| YouTubeUploader.GetUploadProgress | youtube_uploader.py:113-134 | Nothing escapes. Without a client the report is the AttributeError; a failing API call gives an error report. The result is `None` iff the response's `items` is falsy. A four-field report comes back iff the response is well formed: a non-empty `items` array whose first element has a `status` object with `uploadStatus` and `privacyStatus`, and a `processingDetails` that is an object when present. Every other response gives `{"error": ...}`. |
| YouTubeUploader.ItemWithoutStatusIsError | youtube_uploader.py:121-132 | For `{"items": [{}]}` the `status` lookup raises KeyError, and the call returns the error report for key `status`. |
| YouTubeUploader.ProgressOfWellFormedResponse | youtube_uploader.py:122-130 | For every well-formed response, whatever other keys it carries, the report is the first item's upload and privacy status. `processingStatus` and `processingProgress` come from `processingDetails`, and are None and `{}` when it or they are absent. |
| AutoUploader.LoadHistory | auto_uploader.py:27-31 | No log file gives the empty history, and a saved history reads back. Loading fails (raises) iff the log is not valid JSON. |
| AutoUploader.SaveThenLoad | auto_uploader.py:27-35 | Loading the log right after saving a history gives that history back. |
| AutoUploader.GetMetadata | auto_uploader.py:37-50 | Reading the metadata fails iff the tag reader raises. A non-empty tag title becomes the title; otherwise the title is the file name without its last extension. An untagged file gets the default description. A tagged file gets its comment, or `""` when the comment is missing or empty. The tags are always `shorts, viral, trending`. |
| AutoUploader.MetadataTitleFromName | auto_uploader.py:37-50 | Without a usable tag title, the title is the file name minus its last extension: title plus that extension is the file name. The description is the default text for an untagged file and the tag comment or `""` for a tagged one. |
| AutoUploader.UntaggedTrackExample | auto_uploader.py:46-50 | An untagged `<dir>/track.mp3` gives title `track`, the default description, and the default tags. |
| AutoUploader.OutputPathShape | auto_uploader.py:58 | The Short's path is the processed directory joined with its basename, and that basename is `<stem>_short.mp4`. |
| AutoUploader.CaptionOfDefaultTags | auto_uploader.py:74 | The caption for the default tags is `#shorts #shorts #viral #trending`. |
| AutoUploader.Start | auto_uploader.py:18-31 | Building the handler succeeds iff the default background exists and the log is readable. The handler then holds the loaded history, or the empty history when there is no log. |
| AutoUploader.Move | auto_uploader.py:99-100 | After the rename the destination holds the source's bytes and the source path is gone. Every other file is untouched and no other file appears. |
| AutoUploader.Finish | auto_uploader.py:88-100 | The entry is recorded in memory first. A failed log write stops there with the old log. Otherwise the log equals the new history, and the file is moved iff the rename succeeds. The files change only when the step is archived. |
| AutoUploader.Process | auto_uploader.py:68-104 | The render call always happens; the upload call happens iff the render returned true. A render failure, a falsy id, or an exception in rendering or uploading leaves the handler as it was. Otherwise the step continues in `Finish` with the returned id, the clock's timestamp and the metadata title. |
| AutoUploader.OnCreated | auto_uploader.py:52-107 | It never raises. An event is ignored iff it is not a regular file ending in `.mp3`, `.wav` or `.m4a`. It is skipped iff its name is already in the history. Ignored, skipped and unreadable-tag events change nothing and call nothing. |
| AutoUploader.OnCreatedSkips | auto_uploader.py:53-66 | An event that is ignored, already processed, or whose tags cannot be read leaves the handler unchanged and calls neither the renderer nor the uploader. |
| AutoUploader.CallsOfStep | auto_uploader.py:68-86 | A step makes calls iff the event is a new watched file with readable tags. The render call gets `<stem>_short.mp4`, the metadata title, the tag caption and `max_duration` left at 60. The upload follows iff the render returned true, with title + " #shorts", the metadata description and tags, and not made for kids. |
| AutoUploader.RenderedShortsAtMostOneMinute | auto_uploader.py:70-75 | The render call leaves `max_duration` at its default of 60. Any video `create_short` writes for that call therefore lasts at most 60 seconds, whatever the audio's length. |
| AutoUploader.FailuresChangeNothing | auto_uploader.py:77-104 | A render returning false, or an upload returning no id or an empty id, leaves the history, the log and every file unchanged. |
| AutoUploader.ArchivedStep | auto_uploader.py:88-100 | A successful step adds exactly one entry, the file name, with the returned id, the timestamp and the title. The log then equals the history and the audio file is at `PROCESSED_DIR/<filename>`. |
| AutoUploader.ArchivedIffAllSucceed | auto_uploader.py:52-100 | A step is archived iff it is a new watched file with readable tags, the render returns true, the upload returns a non-empty id, the log write and the rename succeed, and the file exists. |
| AutoUploader.HistoryGrowsByAtMostOne | auto_uploader.py:88-94 | Whatever happens, every existing history entry stays unchanged, and at most the event's own file name is added. |
| AutoUploader.CrashAfterUploadKeepsEntry | auto_uploader.py:88-100 | The success path is not atomic. A failed log write keeps the new entry in memory only, and a failed rename keeps it persisted. In both cases the audio file stays where it was. |
| AutoUploader.ArchivedLogReloads | auto_uploader.py:27-35 | After a successful step, reloading the log gives the in-memory history. |
| AutoUploader.TrackScenario | auto_uploader.py:52-100 | In any handler holding an untagged `to_process/track.mp3` (whatever other files exist), rendering and uploading with id `abc123` records it under `track.mp3` with title `track`. Its bytes are then at `processed/track.mp3` and no longer at the source path. Every other file is unchanged. |
| AutoUploader.RecordedNeverReprocessed | auto_uploader.py:61-63 | Once a name is in the history it stays there, and every later event for it in a run is ignored or skipped, with no render and no upload. |
| AutoUploader.RunSplit | auto_uploader.py:52-107 | Step `k` of a run is the handler's step on event `k` from the state the run had reached. The rest of the run continues from its result. |
| AutoUploader.AtMostOneUploadPerName | auto_uploader.py:61-100 | After an event for a name is archived, no later event for that name in the same run renders, uploads, or is archived again. |
| AutoUploader.AsWrittenNeverArchives | auto_uploader.py:80-86 | With the call as written (`upload` on a class that only defines `upload_video`), no event is ever archived or changes the handler. A new file whose render succeeds always crashes at the upload. |
| AutoUploader.CorrectedUpload | youtube_uploader.py:97-111 | Calling `upload_video` and reading the response's `id` field: the step has an outcome iff the loop finished. An SDK failure is an upload exception, and a returned response gives an id iff it carries a string `id`. |
| AutoUploader.CorrectedWiringArchives | auto_uploader.py:80-100 | With the corrected call, a response with a non-empty `id` is archived and recorded under that id. |

## Left out

- Pixels, fonts and encoding: moviepy's `AudioFileClip`, `TextClip`, `CompositeVideoClip` and `write_videofile`, and PIL's open/resize/crop/save. These are library work. Only their success or failure (`Media`) and the geometry handed to them are modelled.
- The effect filters' own arithmetic (`apply_zoom`, `apply_vignette`, `apply_wave_effect`, and the other filters' pixel work). These are floating-point or NumPy formulas; a clip is a trace of filter names and parameters. Whether moviepy exports `fade_in`/`fade_out` under these names is also not modelled.
- VideoCreator.ShortsBackground: the ratio test and `int(...)` are computed on exact rationals (`16w > 9h`, floor division). Floating-point rounding of `w / h` is idealised away.
- VideoCreator.CreateVideo: the height `int(h * (width / w))` is computed exactly, with the same idealisation.
- VideoCreator.Trim: requires a non-negative `max_duration`. moviepy's negative-index `subclip` is not modelled.
- AutoUploader.OnCreated: the rendered `.mp4` is not added to the handler's file map. It is visible only as the render call.
- `authenticate` (youtube_uploader.py:18-45): OAuth, token pickling and the refresh path are reduced to a success flag. The refresh path would raise because `Request` is undefined at line 26.
- The googleapiclient SDK is an oracle: a finite sequence of chunk outcomes, a list response, or a failure. An endless run of transient errors is stated only as "still sending after any finite number".
- JSON text: the history log is a map, and the log's on-disk encoding (`indent=4`) is not modelled.
- AutoUploader.Finish: a failed log write is modelled as leaving the previous log in place. A write that fails after truncating the file would leave a corrupt log instead.
- The clock (`datetime.now().isoformat()`) is an opaque timestamp string in `Env`.
- Printed messages and exception texts (`str(e)`) are not modelled. An error report carries the kind of exception only.
- The watchdog observer, the `main` sleep loop and KeyboardInterrupt handling (auto_uploader.py:109-120) are event plumbing.
- The `os.makedirs` calls in `__init__` (auto_uploader.py:24-25) and in `create_video` (music_video_creator.py:84) are not modelled. Directories are not part of the file map.
- create_background.py is not part of this model: its only logic is a float gradient and a library blur, and the file is not valid Python.
- test_upload.py is not part of this model: it is a script without assertions.
- The tag reader is an input: it raises, finds no tag, or gives an optional title and comment. `eyed3.load` returning None for a non-audio file is the "no tag" case.
- Two behaviours of the code a reader might not expect:
  - A tag reader exception is caught by `on_created`'s handler, not by `get_metadata`, so the step ends as a crash with nothing changed.
  - A corrupt log makes `load_upload_history` raise, so building the handler fails.

## Findings

| source | as written | input that shows it | evidently intended | confidence | as-written member | corrected member |
|---|---|---|---|---|---|---|
| auto_uploader.py:80-86 | The handler calls `self.uploader.upload(..., made_for_kids=False)`, but `YouTubeUploader` defines only `upload_video`, and that returns the API response dictionary, not an id. | Any new `.mp3` in the watched directory whose render returns True: the attribute lookup raises AttributeError, caught at line 106. Nothing is recorded and the file stays, so the next announcement renders it again. | Call `upload_video` with the title, description and tags (it takes no `made_for_kids` argument and always sends false), and record the response's `id`. | high; not executed | AutoUploader.AsWrittenNeverArchives | AutoUploader.CorrectedWiringArchives |

The handler model (`OnCreated`) takes the uploader's result as an oracle `Uploaded(videoId)`. This is the corrected wiring: `CorrectedUpload` derives that value from a `upload_video` run.

=== FILE: auto_uploader.dfy ===
/**
  `ShortsFileHandler` of auto_uploader.py: the per-file pipeline run for each
  "file created" event, and the upload history that keeps it idempotent.

  The handler is an immutable record: the in-memory history, the history log
  on disk, and the file system's regular files. One event is one pure step.
  Everything outside the handler's own logic is an oracle value in `Env`: the
  tag reader, the video renderer, the uploader, the clock, and whether writing
  the log and renaming the file succeed. The step also returns the calls it
  made to the renderer and uploader, so "nothing was rendered" can be stated.
 */
module AutoUploader {
  import opened Wrappers
  import opened Paths
  import VideoCreator
  import YT = YouTubeUploader

  type Bytes = seq<bv8>

  /** One history entry, keyed by the audio file's name. */
  datatype Record = Record(videoId: string, uploadTime: string, title: string)
  type History = map<string, Record>

  /** The history log file: absent, holding a history, or not valid JSON. */
  datatype LogFile = NoLog | LogHolds(entries: History) | Corrupt

  datatype Metadata = Metadata(title: string, description: string, tags: seq<string>)

  const DefaultTags: seq<string> := ["shorts", "viral", "trending"]
  const DefaultDescription := "Check out this awesome Short! #shorts"

  /** The watched extensions, matched case-sensitively at the end of the path. */
  predicate IsAudio(path: string) {
    EndsWith(path, ".mp3") || EndsWith(path, ".wav") || EndsWith(path, ".m4a")
  }

  /** What reading the file's tags gives: the reader raised, there is no tag
      (or no readable audio file), or a tag with an optional title and comment. */
  datatype TagRead = ReadRaises | NoTag | Tagged(title: Option<string>, comment: Option<string>)

  // ----- History store -----

  /** `load_upload_history`: an absent log is the empty history; a corrupt one raises. */
  function LoadHistory(log: LogFile): (r: Option<History>)
    ensures r.None? <==> log.Corrupt?
    ensures log.NoLog? ==> r == Some(map[])
  {
    match log
    case NoLog => Some(map[])
    case LogHolds(entries) => Some(entries)
    case Corrupt => None
  }

  /** `save_upload_history`: the whole in-memory history replaces the log. */
  function SaveHistory(history: History): LogFile {
    LogHolds(history)
  }

  /** Loading what was saved gives back the same history. */
  lemma SaveThenLoad(history: History)
    ensures LoadHistory(SaveHistory(history)) == Some(history)
  {
  }

  // ----- Metadata, output path and caption -----

  /** `get_metadata`; None when the tag reader raises (the exception reaches the
      handler's `except`). */
  function GetMetadata(audioPath: string, tags: TagRead): (r: Option<Metadata>)
    ensures r.None? <==> tags.ReadRaises?
    ensures r.Some? ==> r.value.tags == DefaultTags
    // A non-empty tag title wins; otherwise the title comes from the file name.
    ensures tags.Tagged? && tags.title.Some? && tags.title.value != "" ==>
              r.value.title == tags.title.value
    ensures tags.NoTag? || (tags.Tagged? && (tags.title.None? || tags.title.value == "")) ==>
              r.value.title == Stem(Basename(audioPath))
    // Untagged files get the stock description; tagged ones their comment, or "".
    ensures tags.NoTag? ==> r.value.description == DefaultDescription
    ensures tags.Tagged? && tags.comment.Some? && tags.comment.value != "" ==>
              r.value.description == tags.comment.value
    ensures tags.Tagged? && (tags.comment.None? || tags.comment.value == "") ==>
              r.value.description == ""
  {
    var stem := Stem(Basename(audioPath));
    match tags
    case ReadRaises => None
    case NoTag => Some(Metadata(stem, DefaultDescription, DefaultTags))
    case Tagged(title, comment) => Some(Metadata(OrElse(title, stem), OrElse(comment, ""), DefaultTags))
  }

  /** Without a usable tag title, the title is the file name minus its last
      extension; putting that extension back gives the file name. */
  lemma MetadataTitleFromName(audioPath: string, tags: TagRead)
    requires tags.NoTag? || (tags.Tagged? && (tags.title.None? || tags.title.value == ""))
    ensures var md := GetMetadata(audioPath, tags).value;
      md.title + SplitExt(Basename(audioPath)).1 == Basename(audioPath)
    ensures tags.NoTag? ==> GetMetadata(audioPath, tags).value.description == DefaultDescription
    ensures tags.Tagged? ==>
              GetMetadata(audioPath, tags).value.description == OrElse(tags.comment, "")
  {
  }

  /** An untagged `track.mp3` gives title `track`. */
  lemma UntaggedTrackExample(dir: string)
    ensures GetMetadata(Join(dir, "track.mp3"), NoTag) ==
              Some(Metadata("track", "Check out this awesome Short! #shorts", ["shorts", "viral", "trending"]))
  {
    BasenameOfJoin(dir, "track.mp3");
    SplitExtExamples();
  }

  /** Where the Short for an audio file is written. */
  function OutputPath(base: string, filename: string): string {
    Join(ProcessedDir(base), Stem(filename) + "_short.mp4")
  }

  /** The output file sits in the processed directory, named `<stem>_short.mp4`. */
  lemma OutputPathShape(base: string, filename: string)
    requires '/' !in filename
    ensures Basename(OutputPath(base, filename)) == Stem(filename) + "_short.mp4"
    ensures EndsWith(OutputPath(base, filename), "_short.mp4")
    ensures OutputPath(base, filename) == Join(ProcessedDir(base), Basename(OutputPath(base, filename)))
  {
    var stem := Stem(filename);
    var name := stem + "_short.mp4";
    StemNoSlash(filename);
    assert '/' !in "_short.mp4";
    assert name[|name| - |"_short.mp4"|..] == "_short.mp4";
    BasenameOfJoin(ProcessedDir(base), name);
    EndsWithTrans(OutputPath(base, filename), name, "_short.mp4");
  }

  /** The hashtags of the caption: `#tag` for each tag, in order. */
  function Hashtags(tags: seq<string>): (r: seq<string>)
    ensures |r| == |tags| && forall i :: 0 <= i < |tags| ==> r[i] == "#" + tags[i]
  {
    seq(|tags|, i requires 0 <= i < |tags| => "#" + tags[i])
  }

  /** The caption: `"#shorts "` and then the hashtags, joined by spaces. */
  function Caption(tags: seq<string>): string {
    "#shorts " + JoinWith(" ", Hashtags(tags))
  }

  /** The caption of every upload: the default tags, each as a hashtag, after "#shorts ". */
  lemma CaptionOfDefaultTags()
    ensures Caption(DefaultTags) == "#shorts " + "#shorts" + " " + "#viral" + " " + "#trending"
  {
    var hashed := Hashtags(DefaultTags);
    assert hashed[0] == "#shorts" && hashed[1] == "#viral" && hashed[2] == "#trending";
    assert hashed == ["#shorts", "#viral", "#trending"];
    JoinWithThree(" ", "#shorts", "#viral", "#trending");
  }

  // ----- Handler state and one event -----

  /** The handler: where it lives, its history, the log on disk, and the regular
      files of the file system by path. */
  datatype Handler = Handler(base: string, history: History, log: LogFile, files: map<string, Bytes>)

  /** Why constructing the handler raised. */
  datatype StartError = CreatorFailed(error: VideoCreator.Error) | HistoryUnreadable

  /** `ShortsFileHandler.__init__`: builds the Shorts creator with the default
      background, then loads the history. */
  function Start(base: string, log: LogFile, files: map<string, Bytes>): (r: Exit<Handler, StartError>)
    ensures r.Return? <==> Join(BackgroundsDir(base), DefaultBg) in files && !log.Corrupt?
    ensures r.Return? ==> r.value.log == log && r.value.files == files &&
                          Some(r.value.history) == LoadHistory(log)
    ensures log == NoLog && r.Return? ==> r.value.history == map[]
  {
    var creator := VideoCreator.NewCreator(None, base, files.Keys);
    if creator.Raise? then Raise(CreatorFailed(creator.error))
    else match LoadHistory(log)
      case None => Raise(HistoryUnreadable)
      case Some(history) => Return(Handler(base, history, log, files))
  }

  /** A new-file event from the watcher. */
  datatype Event = Event(isDirectory: bool, srcPath: string)

  /** How the renderer call ended: it returned this flag, or it raised. */
  datatype RenderOutcome = Rendered(ok: bool) | RenderRaises
  /** How the uploader call ended: it returned this id (None for `None`), or it raised. */
  datatype UploadOutcome = Uploaded(videoId: Option<string>) | UploadRaises

  /** The outside world during one event. `now` is the timestamp text the clock gives. */
  datatype Env = Env(tags: TagRead, render: RenderOutcome, upload: UploadOutcome,
                     now: string, saveOk: bool, renameOk: bool)

  /** A call the handler makes to a collaborator, with its arguments. */
  datatype Call =
    | RenderCall(audioPath: string, outputPath: string, title: string, caption: string,
                 maxDuration: real)
    | UploadCall(videoPath: string, title: string, description: string, tags: seq<string>,
                 madeForKids: bool)

  /** Where an exception interrupted the pipeline. */
  datatype Stage = ReadingTags | Rendering | Uploading | SavingHistory | MovingFile

  /** How one event ended. Crashed means an exception was caught and logged. */
  datatype Outcome = Ignored | AlreadyProcessed | RenderFailed | UploadFailed | Archived | Crashed(stage: Stage)

  datatype StepResult = StepResult(handler: Handler, calls: seq<Call>, outcome: Outcome)

  /** `os.rename(src, dst)` on the file map. */
  function Move(files: map<string, Bytes>, src: string, dst: string): (r: map<string, Bytes>)
    requires src in files
    ensures dst in r && r[dst] == files[src]
    ensures src != dst ==> src !in r
    ensures forall p :: p in files && p != src && p != dst ==> p in r && r[p] == files[p]
    ensures forall p :: p in r ==> p == dst || p in files
  {
    (files - {src})[dst := files[src]]
  }

  /** The events the handler acts on: regular files with a watched extension. */
  predicate Watched(ev: Event) {
    !ev.isDirectory && IsAudio(ev.srcPath)
  }

  /** The render call for a file, with the caption built from its tags;
      `max_duration` is left at its default. */
  function RenderRequest(audioPath: string, outputPath: string, md: Metadata): Call {
    RenderCall(audioPath, outputPath, md.title, Caption(md.tags), VideoCreator.DefaultMaxDuration)
  }

  /** The upload call for a rendered Short: the title gains " #shorts" and the
      video is declared not made for kids. */
  function UploadRequest(outputPath: string, md: Metadata): Call {
    UploadCall(outputPath, md.title + " #shorts", md.description, md.tags, false)
  }

  /** The last stage, once the uploader returned a usable id: record the entry in
      memory, save the log, then move the audio file into the processed directory. */
  function Finish(h: Handler, audioPath: string, filename: string, rec: Record, env: Env,
                  calls: seq<Call>): (r: StepResult)
    ensures r.calls == calls && r.handler.base == h.base
    ensures r.handler.history == h.history[filename := rec]
    ensures r.outcome in {Archived, Crashed(SavingHistory), Crashed(MovingFile)}
    ensures r.outcome == Crashed(SavingHistory) <==> !env.saveOk
    ensures r.outcome == Crashed(SavingHistory) ==> r.handler.log == h.log
    ensures r.outcome != Crashed(SavingHistory) ==> r.handler.log == LogHolds(r.handler.history)
    ensures r.outcome == Archived <==> env.saveOk && env.renameOk && audioPath in h.files
    ensures r.outcome != Archived ==> r.handler.files == h.files
    ensures r.outcome == Archived ==>
              audioPath in h.files &&
              r.handler.files == Move(h.files, audioPath, Join(ProcessedDir(h.base), filename))
  {
    var history := h.history[filename := rec];
    if !env.saveOk then
      // The entry is already in memory when writing the log fails.
      StepResult(h.(history := history), calls, Crashed(SavingHistory))
    else
      var saved := h.(history := history, log := SaveHistory(history));
      var processedAudio := Join(ProcessedDir(h.base), filename);
      if env.renameOk && audioPath in h.files then
        StepResult(saved.(files := Move(h.files, audioPath, processedAudio)), calls, Archived)
      else
        StepResult(saved, calls, Crashed(MovingFile))
  }

  /** The stages from rendering on, for a new file whose tags were read. */
  function Process(h: Handler, audioPath: string, filename: string, outputPath: string,
                   md: Metadata, env: Env): (r: StepResult)
    ensures r.handler.base == h.base
    ensures 1 <= |r.calls| <= 2 && r.calls[0] == RenderRequest(audioPath, outputPath, md)
    ensures |r.calls| == 2 <==> env.render == Rendered(true)
    ensures |r.calls| == 2 ==> r.calls[1] == UploadRequest(outputPath, md)
    ensures r.outcome !in {Ignored, AlreadyProcessed, Crashed(ReadingTags)}
    ensures r.outcome == Crashed(Rendering) <==> env.render == RenderRaises
    ensures r.outcome == RenderFailed <==> env.render == Rendered(false)
    ensures r.outcome == Crashed(Uploading) <==> env.render == Rendered(true) && env.upload == UploadRaises
    ensures r.outcome == UploadFailed <==>
              env.render == Rendered(true) && env.upload.Uploaded? &&
              (env.upload.videoId.None? || env.upload.videoId.value == "")
    ensures r.outcome in {RenderFailed, UploadFailed, Crashed(Rendering), Crashed(Uploading)} ==>
              r.handler == h
    ensures r.outcome in {Archived, Crashed(SavingHistory), Crashed(MovingFile)} ==>
              && env.render == Rendered(true) && env.upload.Uploaded?
              && env.upload.videoId.Some? && env.upload.videoId.value != ""
              && r == Finish(h, audioPath, filename, Record(env.upload.videoId.value, env.now, md.title),
                             env, r.calls)
  {
    var render := RenderRequest(audioPath, outputPath, md);
    match env.render
    case RenderRaises => StepResult(h, [render], Crashed(Rendering))
    case Rendered(ok) =>
      if !ok then StepResult(h, [render], RenderFailed)
      else
        var calls := [render, UploadRequest(outputPath, md)];
        match env.upload
        case UploadRaises => StepResult(h, calls, Crashed(Uploading))
        case Uploaded(videoId) =>
          if videoId.None? || videoId.value == "" then StepResult(h, calls, UploadFailed)
          else Finish(h, audioPath, filename, Record(videoId.value, env.now, md.title), env, calls)
  }

  /** `on_created`. Exceptions never escape: each is a `Crashed` outcome. */
  function OnCreated(h: Handler, ev: Event, env: Env): (r: StepResult)
    ensures r.handler.base == h.base
    ensures r.outcome == Ignored <==> !Watched(ev)
    ensures r.outcome == AlreadyProcessed <==> Watched(ev) && Basename(ev.srcPath) in h.history
    ensures r.outcome in {Ignored, AlreadyProcessed, Crashed(ReadingTags)} ==> r.handler == h && r.calls == []
    ensures |r.calls| <= 2
  {
    if !Watched(ev) then StepResult(h, [], Ignored)
    else
      var audioPath := ev.srcPath;
      var filename := Basename(audioPath);
      var outputPath := OutputPath(h.base, filename);
      if filename in h.history then StepResult(h, [], AlreadyProcessed)
      else match GetMetadata(audioPath, env.tags)
        case None => StepResult(h, [], Crashed(ReadingTags))
        case Some(md) => Process(h, audioPath, filename, outputPath, md, env)
  }

  /** A new watched file whose tags could be read goes through `Process`. */
  lemma OnCreatedProcesses(h: Handler, ev: Event, env: Env)
    requires Watched(ev) && Basename(ev.srcPath) !in h.history && !env.tags.ReadRaises?
    ensures var name := Basename(ev.srcPath);
      OnCreated(h, ev, env) ==
        Process(h, ev.srcPath, name, OutputPath(h.base, name), GetMetadata(ev.srcPath, env.tags).value, env)
  {
  }

  /** Any other event leaves the handler alone and calls nothing. */
  lemma OnCreatedSkips(h: Handler, ev: Event, env: Env)
    requires !(Watched(ev) && Basename(ev.srcPath) !in h.history && !env.tags.ReadRaises?)
    ensures var r := OnCreated(h, ev, env);
      r.handler == h && r.calls == [] && r.outcome in {Ignored, AlreadyProcessed, Crashed(ReadingTags)}
  {
  }

  // ----- Properties of one step -----

  /** What a step asks of the renderer and the uploader: a new watched file is
      rendered to `<stem>_short.mp4` with the metadata title and the tag
      caption; the upload follows only a successful render, with the title
      suffixed " #shorts", the metadata description and tags, not for kids. */
  lemma CallsOfStep(h: Handler, ev: Event, env: Env)
    ensures var r := OnCreated(h, ev, env);
      var name := Basename(ev.srcPath);
      && (r.calls != [] <==> Watched(ev) && name !in h.history && !env.tags.ReadRaises?)
      && (r.calls != [] ==>
            var md := GetMetadata(ev.srcPath, env.tags).value;
            var out := OutputPath(h.base, name);
            && r.calls[0] == RenderCall(ev.srcPath, out, md.title, Caption(md.tags), 60.0)
            && (|r.calls| == 2 <==> env.render == Rendered(true))
            && (|r.calls| == 2 ==>
                  r.calls[1] == UploadCall(out, md.title + " #shorts", md.description, md.tags, false)))
  {
    if Watched(ev) && Basename(ev.srcPath) !in h.history && !env.tags.ReadRaises? {
      OnCreatedProcesses(h, ev, env);
    }
  }

  /** Every Short the handler asks for lasts at most a minute: the render call
      leaves `max_duration` at its default, so whatever the media libraries
      report, the video `create_short` writes for that call is at most 60 s. */
  lemma RenderedShortsAtMostOneMinute(h: Handler, ev: Event, env: Env, c: VideoCreator.Creator,
                                      existing: set<string>, tempBg: bool, media: VideoCreator.Media)
    requires media.audioDuration.Some? ==> 0.0 <= media.audioDuration.value
    ensures var r := OnCreated(h, ev, env);
      r.calls != [] ==>
        && r.calls[0].RenderCall? && r.calls[0].maxDuration == 60.0
        && var call := r.calls[0];
           var run := VideoCreator.CreateShort(c, call.audioPath, call.outputPath, call.title,
                                               call.caption, call.maxDuration, existing, tempBg, media);
           run.video.Some? ==> run.video.value.duration <= 60.0
  {
    CallsOfStep(h, ev, env);
  }

  /** A render that returns false, or an upload that returns no id, leaves the
      history, the log and every file exactly as they were. */
  lemma FailuresChangeNothing(h: Handler, ev: Event, env: Env)
    requires Watched(ev) && Basename(ev.srcPath) !in h.history && !env.tags.ReadRaises?
    requires env.render == Rendered(false) ||
             (env.render == Rendered(true) && (env.upload == Uploaded(None) || env.upload == Uploaded(Some(""))))
    ensures OnCreated(h, ev, env).handler == h
    ensures OnCreated(h, ev, env).outcome in {RenderFailed, UploadFailed}
  {
    OnCreatedProcesses(h, ev, env);
  }

  /** A successful step: the file name was new and gains exactly one entry with
      the returned id, the step's timestamp and the metadata title; the log
      equals the history; the audio file moved to the processed directory. */
  lemma ArchivedStep(h: Handler, ev: Event, env: Env)
    requires OnCreated(h, ev, env).outcome == Archived
    ensures var r := OnCreated(h, ev, env);
      var name := Basename(ev.srcPath);
      && Watched(ev) && name !in h.history
      && env.render == Rendered(true) && env.saveOk && env.renameOk
      && env.upload.Uploaded? && env.upload.videoId.Some? && env.upload.videoId.value != ""
      && r.handler.history ==
           h.history[name := Record(env.upload.videoId.value, env.now,
                                    GetMetadata(ev.srcPath, env.tags).value.title)]
      && r.handler.history.Keys == h.history.Keys + {name}
      && r.handler.log == LogHolds(r.handler.history)
      && ev.srcPath in h.files
      && r.handler.files == Move(h.files, ev.srcPath, Join(ProcessedDir(h.base), name))
      && |r.calls| == 2
  {
    var r := OnCreated(h, ev, env);
    var name := Basename(ev.srcPath);
    assert Watched(ev) && name !in h.history && !env.tags.ReadRaises?;
    OnCreatedProcesses(h, ev, env);
    var md := GetMetadata(ev.srcPath, env.tags).value;
    var rec := Record(env.upload.videoId.value, env.now, md.title);
    assert r == Finish(h, ev.srcPath, name, rec, env, r.calls);
    assert r.handler.history == h.history[name := rec];
    RecordKeys(h.history, name, rec);
  }

  /** The step is archived exactly when every collaborator succeeds. */
  lemma ArchivedIffAllSucceed(h: Handler, ev: Event, env: Env)
    ensures OnCreated(h, ev, env).outcome == Archived <==>
              && Watched(ev) && Basename(ev.srcPath) !in h.history && !env.tags.ReadRaises?
              && env.render == Rendered(true)
              && env.upload.Uploaded? && env.upload.videoId.Some? && env.upload.videoId.value != ""
              && env.saveOk && env.renameOk && ev.srcPath in h.files
  {
    var name := Basename(ev.srcPath);
    if Watched(ev) && name !in h.history && !env.tags.ReadRaises? {
      OnCreatedProcesses(h, ev, env);
      var md := GetMetadata(ev.srcPath, env.tags).value;
      ProcessArchivedIff(h, ev.srcPath, name, OutputPath(h.base, name), md, env);
    } else {
      OnCreatedSkips(h, ev, env);
    }
  }

  /** The `Archived` outcome of the stages after the tags were read. */
  lemma ProcessArchivedIff(h: Handler, audioPath: string, filename: string, outputPath: string,
                           md: Metadata, env: Env)
    ensures Process(h, audioPath, filename, outputPath, md, env).outcome == Archived <==>
              && env.render == Rendered(true)
              && env.upload.Uploaded? && env.upload.videoId.Some? && env.upload.videoId.value != ""
              && env.saveOk && env.renameOk && audioPath in h.files
  {
  }

  /** `after` keeps every entry of `before` unchanged and adds at most `name`. */
  predicate ExtendsByAtMostOne(before: History, after: History, name: string) {
    && before.Keys <= after.Keys
    && (forall k :: k in before ==> after[k] == before[k])
    && after.Keys - before.Keys <= {name}
  }

  lemma RecordKeys(history: History, name: string, rec: Record)
    ensures history[name := rec].Keys == history.Keys + {name}
  {
  }

  lemma RecordExtends(history: History, name: string, rec: Record)
    requires name !in history
    ensures ExtendsByAtMostOne(history, history[name := rec], name)
  {
  }

  /** The stages after the tags were read add at most the file's own entry. */
  lemma ProcessExtends(h: Handler, audioPath: string, filename: string, outputPath: string,
                       md: Metadata, env: Env)
    requires filename !in h.history
    ensures ExtendsByAtMostOne(h.history, Process(h, audioPath, filename, outputPath, md, env).handler.history,
                               filename)
  {
    var r := Process(h, audioPath, filename, outputPath, md, env);
    if r.outcome in {Archived, Crashed(SavingHistory), Crashed(MovingFile)} {
      var rec := Record(env.upload.videoId.value, env.now, md.title);
      assert r == Finish(h, audioPath, filename, rec, env, r.calls);
      assert r.handler.history == h.history[filename := rec];
      RecordExtends(h.history, filename, rec);
    } else {
      assert r.outcome in {RenderFailed, UploadFailed, Crashed(Rendering), Crashed(Uploading)};
      assert r.handler == h;
    }
  }

  /** The history only grows: no entry is ever changed or removed, and at most
      the event's own file name is added. */
  lemma HistoryGrowsByAtMostOne(h: Handler, ev: Event, env: Env)
    ensures ExtendsByAtMostOne(h.history, OnCreated(h, ev, env).handler.history, Basename(ev.srcPath))
  {
    var name := Basename(ev.srcPath);
    if Watched(ev) && name !in h.history && !env.tags.ReadRaises? {
      OnCreatedProcesses(h, ev, env);
      var md := GetMetadata(ev.srcPath, env.tags).value;
      ProcessExtends(h, ev.srcPath, name, OutputPath(h.base, name), md, env);
    } else {
      OnCreatedSkips(h, ev, env);
    }
  }

  /** When the step crashes after the upload, the entry is already recorded
      (and, past the save, persisted) while the audio file stays where it was:
      the success path is not atomic. */
  lemma CrashAfterUploadKeepsEntry(h: Handler, ev: Event, env: Env)
    requires OnCreated(h, ev, env).outcome in {Crashed(SavingHistory), Crashed(MovingFile)}
    ensures var r := OnCreated(h, ev, env);
      && Basename(ev.srcPath) in r.handler.history
      && Basename(ev.srcPath) !in h.history
      && r.handler.files == h.files
      && (r.outcome == Crashed(SavingHistory) ==> r.handler.log == h.log)
      && (r.outcome == Crashed(MovingFile) ==> r.handler.log == LogHolds(r.handler.history))
  {
    OnCreatedProcesses(h, ev, env);
  }

  /** After a successful step, reloading the log gives the in-memory history. */
  lemma ArchivedLogReloads(h: Handler, ev: Event, env: Env)
    requires OnCreated(h, ev, env).outcome == Archived
    ensures LoadHistory(OnCreated(h, ev, env).handler.log) == Some(OnCreated(h, ev, env).handler.history)
  {
    ArchivedStep(h, ev, env);
  }

  lemma TrackFileName()
    ensures "track.mp3" != "" && '/' !in "track.mp3" && EndsWith("track.mp3", ".mp3")
  {
    assert "track.mp3"[5..] == ".mp3";
  }

  /** An untagged `track.mp3` in the watched directory, rendered and uploaded,
      is recorded and archived. */
  lemma TrackScenario(h: Handler, env: Env, content: Bytes)
    requires "track.mp3" !in h.history
    requires Join(ToProcessDir(h.base), "track.mp3") in h.files
    requires h.files[Join(ToProcessDir(h.base), "track.mp3")] == content
    requires env.tags == NoTag && env.render == Rendered(true) && env.saveOk && env.renameOk
    requires env.upload == Uploaded(Some("abc123"))
    ensures var src := Join(ToProcessDir(h.base), "track.mp3");
      var r := OnCreated(h, Event(false, src), env);
      && r.outcome == Archived
      && r.handler.history == h.history["track.mp3" := Record("abc123", env.now, "track")]
      && Join(ProcessedDir(h.base), "track.mp3") in r.handler.files
      && r.handler.files[Join(ProcessedDir(h.base), "track.mp3")] == content
      && src !in r.handler.files
      // Every other file, the default background among them, is left as it was.
      && (forall p :: p in h.files && p != src && p != Join(ProcessedDir(h.base), "track.mp3") ==>
            p in r.handler.files && r.handler.files[p] == h.files[p])
  {
    var src := Join(ToProcessDir(h.base), "track.mp3");
    var ev := Event(false, src);
    TrackFileName();
    ToProcessIsNotProcessed(h.base, "track.mp3");
    BasenameOfJoin(ToProcessDir(h.base), "track.mp3");
    EndsWithTrans(src, "track.mp3", ".mp3");
    assert Watched(ev);
    UntaggedTrackExample(ToProcessDir(h.base));
    assert src in h.files;
    ArchivedIffAllSucceed(h, ev, env);
    ArchivedStep(h, ev, env);
  }

  // ----- Runs of events -----

  /** The results of handling `events` one after another with `step`, starting from `h`. */
  function Fold(step: (Handler, Event, Env) -> StepResult, h: Handler, events: seq<(Event, Env)>)
    : (steps: seq<StepResult>)
    ensures |steps| == |events|
    decreases |events|
  {
    if events == [] then []
    else
      var s := step(h, events[0].0, events[0].1);
      [s] + Fold(step, s.handler, events[1..])
  }

  /** The results of handling `events` one after another, starting from `h`. */
  function Run(h: Handler, events: seq<(Event, Env)>): seq<StepResult> {
    Fold(OnCreated, h, events)
  }

  /** Once a file name is in the history, no later event for that name renders
      or uploads anything, however the collaborators behave. */
  lemma {:induction false} RecordedNeverReprocessed(h: Handler, events: seq<(Event, Env)>, name: string)
    requires name in h.history
    ensures forall i :: 0 <= i < |events| && Basename(events[i].0.srcPath) == name ==>
              Run(h, events)[i].calls == [] && Run(h, events)[i].outcome in {Ignored, AlreadyProcessed}
    ensures forall i :: 0 <= i < |events| ==> name in Run(h, events)[i].handler.history
    decreases |events|
  {
    if events != [] {
      var s := OnCreated(h, events[0].0, events[0].1);
      HistoryGrowsByAtMostOne(h, events[0].0, events[0].1);
      assert name in s.handler.history;
      RecordedNeverReprocessed(s.handler, events[1..], name);
      var steps := Run(h, events);
      var rest := Run(s.handler, events[1..]);
      assert steps == [s] + rest;
      forall i | 0 <= i < |events|
        ensures Basename(events[i].0.srcPath) == name ==>
                  steps[i].calls == [] && steps[i].outcome in {Ignored, AlreadyProcessed}
        ensures name in steps[i].handler.history
      {
        if i > 0 {
          assert steps[i] == rest[i - 1];
          assert events[i] == events[1..][i - 1];
        }
      }
    }
  }

  /** The handler a fold with `step` has reached just before its `k`-th event. */
  function Before(step: (Handler, Event, Env) -> StepResult, h: Handler, events: seq<(Event, Env)>,
                  k: nat): Handler
    requires k <= |events|
  {
    if k == 0 then h else Fold(step, h, events)[k - 1].handler
  }

  /** A fold splits at any event: step `k` is `step` applied to the state the
      fold had reached, and the rest of the fold continues from its result. */
  lemma {:induction false} FoldSplit(step: (Handler, Event, Env) -> StepResult, h: Handler,
                                     events: seq<(Event, Env)>, k: nat)
    requires k < |events|
    ensures var steps := Fold(step, h, events);
      && steps[k] == step(Before(step, h, events, k), events[k].0, events[k].1)
      && steps[k + 1..] == Fold(step, steps[k].handler, events[k + 1..])
    decreases k
  {
    var s := step(h, events[0].0, events[0].1);
    var rest := Fold(step, s.handler, events[1..]);
    var steps := Fold(step, h, events);
    assert steps == [s] + rest;
    if k > 0 {
      FoldSplit(step, s.handler, events[1..], k - 1);
      assert events[1..][k - 1] == events[k];
      assert events[1..][k..] == events[k + 1..];
      assert steps[k] == rest[k - 1];
      assert steps[k + 1..] == rest[k..];
      if k > 1 {
        assert steps[k - 1] == rest[k - 2];
      }
    }
  }

  /** A run splits at any event: step `k` is that event handled from where the
      run had got to, and the rest of the run continues from its result. */
  lemma RunSplit(h: Handler, events: seq<(Event, Env)>, k: nat)
    requires k < |events|
    ensures Run(h, events)[k] == OnCreated(Before(OnCreated, h, events, k), events[k].0, events[k].1)
    ensures Run(h, events)[k + 1..] == Run(Run(h, events)[k].handler, events[k + 1..])
  {
    FoldSplit(OnCreated, h, events, k);
  }

  /** Idempotency across a run: after an event is archived, no later event for
      the same file name renders or uploads anything, so none is archived again. */
  lemma AtMostOneUploadPerName(h: Handler, events: seq<(Event, Env)>, i: nat, j: nat)
    requires i < j < |events|
    requires Run(h, events)[i].outcome == Archived
    requires Basename(events[j].0.srcPath) == Basename(events[i].0.srcPath)
    ensures Run(h, events)[j].calls == []
    ensures Run(h, events)[j].outcome != Archived
  {
    var steps := Run(h, events);
    var name := Basename(events[i].0.srcPath);
    RunSplit(h, events, i);
    ArchivedStep(Before(OnCreated, h, events, i), events[i].0, events[i].1);
    assert name in steps[i].handler.history;
    var later := events[i + 1..];
    RecordedNeverReprocessed(steps[i].handler, later, name);
    assert later[j - i - 1] == events[j];
    assert steps[j] == steps[i + 1..][j - i - 1];
  }

  // ----- Wiring the handler to the uploader class -----

  /** The handler calls `self.uploader.upload(...)`, but the uploader class only
      defines `upload_video`, so the attribute lookup raises before any upload. */
  function AsWrittenUpload(): UploadOutcome {
    UploadRaises
  }

  /** With the upload raising, the stages after the tags were read change nothing
      and crash at the upload whenever the render succeeds. */
  lemma ProcessAsWritten(h: Handler, audioPath: string, filename: string, outputPath: string,
                         md: Metadata, env: Env)
    requires env.upload == AsWrittenUpload()
    ensures var r := Process(h, audioPath, filename, outputPath, md, env);
      && r.outcome in {Crashed(Rendering), RenderFailed, Crashed(Uploading)}
      && r.handler == h
      && (env.render == Rendered(true) ==> r.outcome == Crashed(Uploading))
  {
  }

  /** As written, no event ever reaches the archived outcome or changes the
      handler: nothing is recorded, so every re-announced file is rendered again. */
  lemma AsWrittenNeverArchives(h: Handler, ev: Event, env: Env)
    requires env.upload == AsWrittenUpload()
    ensures OnCreated(h, ev, env).outcome != Archived
    ensures OnCreated(h, ev, env).handler == h
    ensures Watched(ev) && Basename(ev.srcPath) !in h.history && !env.tags.ReadRaises?
              && env.render == Rendered(true) ==>
              OnCreated(h, ev, env).outcome == Crashed(Uploading)
  {
    var name := Basename(ev.srcPath);
    if Watched(ev) && name !in h.history && !env.tags.ReadRaises? {
      OnCreatedProcesses(h, ev, env);
      var md := GetMetadata(ev.srcPath, env.tags).value;
      ProcessAsWritten(h, ev.srcPath, name, OutputPath(h.base, name), md, env);
    } else {
      OnCreatedSkips(h, ev, env);
    }
  }

  /** The intended wiring: call `upload_video` (which takes no made-for-kids
      argument; its body fixes the flag to false) and take the video id from the
      response's `id` field. None while the upload is still sending. */
  function CorrectedUpload(u: YT.Upload): (r: Option<UploadOutcome>)
    ensures r.None? <==> u.end.StillSending?
    ensures u.end.Finished? && u.end.exit.Raise? ==> r == Some(UploadRaises)
    ensures u.end.Finished? && u.end.exit.Return? ==>
              var resp := u.end.exit.value;
              r.Some? && r.value.Uploaded? &&
              (r.value.videoId.Some? <==> "id" in resp && resp["id"].JStr?)
  {
    match u.end
    case StillSending => None
    case Finished(Raise(_)) => Some(UploadRaises)
    case Finished(Return(resp)) =>
      if "id" in resp && resp["id"].JStr? then Some(Uploaded(Some(resp["id"].s)))
      else Some(Uploaded(None))
  }

  /** With the corrected wiring, an upload whose response carries a non-empty id
      is recorded under that id and the audio file is archived. */
  lemma CorrectedWiringArchives(h: Handler, ev: Event, env: Env, u: YT.Upload, id: string)
    requires Watched(ev) && Basename(ev.srcPath) !in h.history && ev.srcPath in h.files
    requires !env.tags.ReadRaises? && env.render == Rendered(true) && env.saveOk && env.renameOk
    requires u.end.Finished? && u.end.exit.Return?
    requires "id" in u.end.exit.value && u.end.exit.value["id"] == YT.JStr(id) && id != ""
    requires CorrectedUpload(u).Some? && env.upload == CorrectedUpload(u).value
    ensures OnCreated(h, ev, env).outcome == Archived
    ensures OnCreated(h, ev, env).handler.history[Basename(ev.srcPath)].videoId == id
  {
  }
}

=== FILE: paths.dfy ===
/**
  The POSIX path operations the pipeline relies on (`os.path.basename`,
  `os.path.splitext`, `os.path.join`, `str.endswith`) and the directory layout
  fixed by the configuration module. Paths are plain strings.
 */
module Paths {

  /** Index of the last occurrence of `c` in `s`, or -1 (Python's `str.rfind`). */
  function RFind(s: string, c: char): (i: int)
    ensures -1 <= i < |s|
    ensures 0 <= i ==> s[i] == c
    ensures forall j :: i < j < |s| ==> s[j] != c
  {
    if |s| == 0 then -1
    else if s[|s| - 1] == c then |s| - 1
    else RFind(s[..|s| - 1], c)
  }

  /** Python's `s.endswith(suffix)`: a case-sensitive suffix test. */
  predicate EndsWith(s: string, suffix: string) {
    |suffix| <= |s| && s[|s| - |suffix|..] == suffix
  }

  /** A suffix of a suffix is a suffix. */
  lemma EndsWithTrans(s: string, t: string, u: string)
    requires EndsWith(s, t) && EndsWith(t, u)
    ensures EndsWith(s, u)
  {
    assert s[|s| - |u|..] == s[|s| - |t|..][|t| - |u|..];
  }

  /** Python's `s.startswith(prefix)`. */
  predicate StartsWith(s: string, prefix: string) {
    |prefix| <= |s| && s[..|prefix|] == prefix
  }

  /** `posixpath.basename`: everything after the last '/'. */
  function Basename(p: string): (r: string)
    ensures '/' !in r
    ensures EndsWith(p, r)
    ensures |r| < |p| ==> p[|p| - |r| - 1] == '/'
  {
    p[RFind(p, '/') + 1..]
  }

  /**
    `posixpath.splitext`: splits off the extension that starts at the last '.'
    after the last '/', unless everything between that '/' and the dot is dots
    (so ".mp3" and "..mp3" have no extension).
   */
  function SplitExt(p: string): (r: (string, string))
    ensures r.0 + r.1 == p
    ensures r.1 == "" || (r.1[0] == '.' && '.' !in r.1[1..] && '/' !in r.1)
    // There is an extension exactly when the last '.' comes after the last '/'
    // and some character other than '.' stands between them; it then starts at
    // that last '.'.
    ensures r.1 != "" <==>
              RFind(p, '/') < RFind(p, '.') &&
              exists k :: RFind(p, '/') < k < RFind(p, '.') && p[k] != '.'
    ensures r.1 != "" ==> |r.0| == RFind(p, '.')
  {
    var sep := RFind(p, '/');
    var dot := RFind(p, '.');
    if sep < dot && exists k :: sep + 1 <= k < dot && p[k] != '.' then
      (p[..dot], p[dot..])
    else
      (p, "")
  }

  /** The file name without its last extension: `os.path.splitext(name)[0]`. */
  function Stem(name: string): string {
    SplitExt(name).0
  }

  /** A stem is a prefix of its name, so it holds no '/' when the name holds none. */
  lemma StemNoSlash(name: string)
    requires '/' !in name
    ensures '/' !in Stem(name)
  {
    var split := SplitExt(name);
    assert name == split.0 + split.1;
  }

  /** `posixpath.join(a, b)` for two components. */
  function Join(a: string, b: string): (r: string)
    ensures EndsWith(r, b)
  {
    if StartsWith(b, "/") then b
    else if a == "" || EndsWith(a, "/") then a + b
    else a + "/" + b
  }

  /** Python's `sep.join(parts)`. */
  function JoinWith(sep: string, parts: seq<string>): string
  {
    if |parts| == 0 then ""
    else if |parts| == 1 then parts[0]
    else parts[0] + sep + JoinWith(sep, parts[1..])
  }

  lemma JoinWithThree(sep: string, a: string, b: string, c: string)
    ensures JoinWith(sep, [a, b, c]) == a + sep + b + sep + c
  {
    assert [a, b, c][1..] == [b, c];
    assert [b, c][1..] == [c];
    assert JoinWith(sep, [b, c]) == b + sep + c;
    assert a + sep + (b + sep + c) == a + sep + b + sep + c;
  }

  // Directory layout of config.py and auto_uploader.py. BASE_DIR is the
  // directory holding config.py, known only at run time, so every path below
  // is a function of it.

  function MediaDir(base: string): string { Join(base, "media") }
  function MusicDir(base: string): string { Join(MediaDir(base), "music") }
  function BackgroundsDir(base: string): string { Join(MediaDir(base), "backgrounds") }
  const DefaultBg := "default_bg.jpg"
  function ToProcessDir(base: string): string { Join(MusicDir(base), "to_process") }
  function ProcessedDir(base: string): string { Join(MusicDir(base), "processed") }

  /** Joining onto a non-empty directory that does not end in '/' inserts one '/'. */
  lemma JoinInsertsSeparator(a: string, b: string)
    requires a != "" && a[|a| - 1] != '/' && (b == "" || b[0] != '/')
    ensures Join(a, b) == a + "/" + b
  {
    assert !EndsWith(a, "/") by {
      if |a| >= 1 { assert a[|a| - 1..] == [a[|a| - 1]]; }
    }
    assert !StartsWith(b, "/") by {
      if |b| >= 1 { assert b[..1] == [b[0]]; }
    }
  }

  /** A string ending in a non-empty suffix ends in that suffix's last character. */
  lemma EndsWithLast(s: string, suffix: string)
    requires EndsWith(s, suffix) && suffix != ""
    ensures s != "" && s[|s| - 1] == suffix[|suffix| - 1]
  {
    assert s[|s| - |suffix|..][|suffix| - 1] == s[|s| - 1];
  }

  lemma MusicDirShape(base: string)
    ensures MusicDir(base) != "" && MusicDir(base)[|MusicDir(base)| - 1] != '/'
  {
    EndsWithLast(MusicDir(base), "music");
    assert "music"[4] == 'c';
  }

  lemma ToProcessDirShape(base: string)
    ensures |ToProcessDir(base)| == |MusicDir(base)| + 11
    ensures ToProcessDir(base)[|ToProcessDir(base)| - 1] != '/'
  {
    MusicDirShape(base);
    assert "to_process"[0] == 't';
    JoinInsertsSeparator(MusicDir(base), "to_process");
    EndsWithLast(ToProcessDir(base), "to_process");
    assert "to_process"[9] == 's';
  }

  lemma ProcessedDirShape(base: string)
    ensures |ProcessedDir(base)| == |MusicDir(base)| + 10
    ensures ProcessedDir(base)[|ProcessedDir(base)| - 1] != '/'
  {
    MusicDirShape(base);
    assert "processed"[0] == 'p';
    JoinInsertsSeparator(MusicDir(base), "processed");
    EndsWithLast(ProcessedDir(base), "processed");
    assert "processed"[8] == 'd';
  }

  /** The same file name in the to-process and the processed directory gives two
      different paths, whatever the base directory. */
  lemma ToProcessIsNotProcessed(base: string, name: string)
    requires name == "" || name[0] != '/'
    ensures Join(ToProcessDir(base), name) != Join(ProcessedDir(base), name)
  {
    ToProcessDirShape(base);
    ProcessedDirShape(base);
    JoinInsertsSeparator(ToProcessDir(base), name);
    JoinInsertsSeparator(ProcessedDir(base), name);
    assert |Join(ToProcessDir(base), name)| != |Join(ProcessedDir(base), name)|;
  }

  /** A file name directly inside `dir` keeps its own name as the basename. */
  lemma {:induction false} BasenameOfJoin(dir: string, name: string)
    requires name != "" && '/' !in name
    ensures Basename(Join(dir, name)) == name
  {
    var p := Join(dir, name);
    var i := RFind(p, '/');
    assert EndsWith(p, name);
    var start := |p| - |name|;
    assert p[start..] == name;
    forall j | start <= j < |p|
      ensures p[j] != '/'
    {
      assert p[j] == name[j - start];
    }
    if start > 0 {
      // Join always puts a '/' right before a relative component, unless
      // the directory part is empty.
      assert p[start - 1] == '/';
    }
    assert i == start - 1;
  }

  /** `RFind` is pinned down by its contract: the last matching index. */
  lemma RFindAt(s: string, c: char, i: int)
    requires 0 <= i < |s| && s[i] == c
    requires forall j :: i < j < |s| ==> s[j] != c
    ensures RFind(s, c) == i
  {
  }

  lemma SplitExtOfTrack()
    ensures SplitExt("track.mp3") == ("track", ".mp3")
  {
    RFindAt("track.mp3", '.', 5);
    assert "track.mp3"[0] != '.';
    assert "track.mp3"[..5] == "track" && "track.mp3"[5..] == ".mp3";
  }

  lemma SplitExtOfDoubleExtension()
    ensures SplitExt("archive.tar.gz") == ("archive.tar", ".gz")
  {
    RFindAt("archive.tar.gz", '.', 11);
    assert "archive.tar.gz"[0] != '.';
    assert "archive.tar.gz"[..11] == "archive.tar" && "archive.tar.gz"[11..] == ".gz";
  }

  lemma SplitExtOfDotFile()
    ensures SplitExt(".mp3") == (".mp3", "")
  {
    RFindAt(".mp3", '.', 0);
  }

  lemma SplitExtOfNoExtension()
    ensures SplitExt("noext") == ("noext", "")
  {
  }

  /** Worked examples of `splitext`, matching CPython: only the last extension
      is split off, a leading dot does not start an extension, and a name
      without a dot has none. */
  lemma SplitExtExamples()
    ensures SplitExt("track.mp3") == ("track", ".mp3")
    ensures SplitExt("archive.tar.gz") == ("archive.tar", ".gz")
    ensures SplitExt(".mp3") == (".mp3", "")
    ensures SplitExt("noext") == ("noext", "")
  {
    SplitExtOfTrack();
    SplitExtOfDoubleExtension();
    SplitExtOfDotFile();
    SplitExtOfNoExtension();
  }
}

=== FILE: video_creator.dfy ===
/**
  The two video creators of music_video_creator.py: `ChillMusicVideoCreator`
  (a landscape video scaled to a requested width) and `ShortsVideoCreator`
  (a 1080x1920 vertical Short). Pixels, fonts and encoding belong to the
  imaging and video libraries; what is kept is the decision logic: which input
  checks raise, how the audio is trimmed, the integer geometry of the
  background, the ordered list of layers, and what is left behind on each exit
  path. The libraries' successes and failures are an input (`Media`).
 */
module VideoCreator {
  import opened Wrappers
  import opened Paths

  const TargetWidth := 1080
  const TargetHeight := 1920
  /** `create_short`'s default cap on the Short's length, in seconds. */
  const DefaultMaxDuration: real := 60.0
  const ShortsFps := 30

  /** Pixel dimensions of an image. */
  datatype Size = Size(width: nat, height: nat)

  /** A crop box as the imaging library takes it: (left, upper, right, lower). */
  datatype Box = Box(left: int, upper: int, right: int, lower: int) {
    function Width(): int { right - left }
    function Height(): int { lower - upper }

    /** The box lies entirely inside an image of size `s`. */
    predicate Inside(s: Size) {
      0 <= left <= right <= s.width && 0 <= upper <= lower <= s.height
    }
  }

  /** How the creator's background was chosen. */
  datatype Creator = Creator(backgroundPath: string)

  /** The exceptions a creator lets escape. */
  datatype Error =
    | FileNotFound(path: string)
    /** Any exception raised by the audio, imaging or video library. */
    | RenderError

  /** One layer of the composite video, bottom first. */
  datatype Layer =
    | BackgroundLayer(image: Size, duration: real)
    | TextLayer(text: string, fontSize: int, color: string, strokeWidth: int,
                boxWidth: Option<int>, yRel: real, duration: real)

  /** The video handed to the encoder. */
  datatype Video = Video(path: string, fps: int, duration: real, resized: Size,
                         crop: Option<Box>, layers: seq<Layer>)

  /** What the media libraries do on one call: the audio clip's duration (None when
      it cannot be opened), the background's size (None when it cannot be opened),
      and whether building the text clips and writing the file succeed. */
  datatype Media = Media(audioDuration: Option<real>, image: Option<Size>, writeOk: bool)

  /** The end of one creator call: how it exits, the video it wrote, if any, and
      whether `temp_bg.jpg` exists afterwards. */
  datatype Run<T> = Run(result: Exit<T, Error>, video: Option<Video>, tempBgExists: bool)

  /** Both constructors: an explicit, non-empty background path is kept as given;
      otherwise the default background must exist. */
  function NewCreator(backgroundPath: Option<string>, base: string, existing: set<string>)
    : (r: Exit<Creator, Error>)
    ensures backgroundPath.Some? && backgroundPath.value != "" ==>
              r == Return(Creator(backgroundPath.value))
    ensures (backgroundPath.None? || backgroundPath.value == "") ==>
              var default := Join(BackgroundsDir(base), DefaultBg);
              (r.Return? <==> default in existing) &&
              (r.Return? ==> r.value.backgroundPath == default) &&
              (r.Raise? ==> r.error == FileNotFound(default))
  {
    if backgroundPath.Some? && backgroundPath.value != "" then
      Return(Creator(backgroundPath.value))
    else
      var default := Join(BackgroundsDir(base), DefaultBg);
      if default in existing then Return(Creator(default)) else Raise(FileNotFound(default))
  }

  /** The audio clip's duration after `subclip(0, maxDuration)` is applied to longer clips. */
  function Trim(duration: real, maxDuration: real): (r: real)
    requires 0.0 <= duration && 0.0 <= maxDuration
    ensures r <= duration && r <= maxDuration
    ensures r == duration || r == maxDuration
  {
    if duration > maxDuration then maxDuration else duration
  }

  /** Python's `int(n / d)` with the quotient taken exactly: truncation toward zero. */
  function IntOfQuotient(n: int, d: int): (q: int)
    requires d != 0
    ensures 0 <= n && 0 < d ==> q * d <= n < (q + 1) * d
  {
    var a := if n < 0 then -n else n;
    var b := if d < 0 then -d else d;
    if (n < 0) == (d < 0) then a / b else -(a / b)
  }

  /** The ratio test `width / height > 9 / 16`, exactly. */
  predicate IsWide(img: Size)
    requires img.height > 0
  {
    16 * img.width > 9 * img.height
  }

  /** The resized Shorts background and its centre crop. */
  datatype Background = Background(resized: Size, crop: Box)

  /** The centred span `(c - target // 2, c + target // 2)` with `c = length // 2`. */
  function CentredSpan(length: int, target: int): (span: (int, int))
    requires 0 <= target <= length && target % 2 == 0
    ensures 0 <= span.0 <= span.1 <= length && span.1 - span.0 == target
    // Centred: the far margin equals the near one, or exceeds it by the odd pixel.
    ensures 0 <= (length - span.1) - span.0 <= 1
  {
    var center := length / 2;
    (center - target / 2, center + target / 2)
  }

  /** The wide branch: scale to the target height, crop the width around the centre. */
  function WideBackground(img: Size): (r: Background)
    requires img.height > 0 && IsWide(img)
    ensures r.resized.height == TargetHeight && r.resized.width >= TargetWidth
    ensures r.resized.width * img.height <= TargetHeight * img.width < (r.resized.width + 1) * img.height
    ensures r.crop.Inside(r.resized) && r.crop.Width() == TargetWidth && r.crop.Height() == TargetHeight
    ensures 0 <= (r.resized.width - r.crop.right) - r.crop.left <= 1 && r.crop.upper == 0
  {
    var newWidth := IntOfQuotient(TargetHeight * img.width, img.height);
    WideWidth(img.width, img.height, newWidth);
    var span := CentredSpan(newWidth, TargetWidth);
    Background(Size(newWidth, TargetHeight), Box(span.0, 0, span.1, TargetHeight))
  }

  /** The tall branch: scale to the target width, crop the height around the centre. */
  function TallBackground(img: Size): (r: Background)
    requires img.width > 0 && img.height > 0 && !IsWide(img)
    ensures r.resized.width == TargetWidth && r.resized.height >= TargetHeight
    ensures r.resized.height * img.width <= TargetWidth * img.height < (r.resized.height + 1) * img.width
    ensures r.crop.Inside(r.resized) && r.crop.Width() == TargetWidth && r.crop.Height() == TargetHeight
    ensures 0 <= (r.resized.height - r.crop.lower) - r.crop.upper <= 1 && r.crop.left == 0
  {
    var newHeight := IntOfQuotient(TargetWidth * img.height, img.width);
    TallHeight(img.width, img.height, newHeight);
    var span := CentredSpan(newHeight, TargetHeight);
    Background(Size(TargetWidth, newHeight), Box(0, span.0, TargetWidth, span.1))
  }

  /** The Shorts background: the branch is chosen by the aspect ratio test.
      None when the ratio computation divides by zero (a zero width or height). */
  function ShortsBackground(img: Size): (r: Option<Background>)
    ensures r.Some? <==> img.width > 0 && img.height > 0
    ensures img.height > 0 && IsWide(img) ==> r == Some(WideBackground(img))
    ensures img.height > 0 && !IsWide(img) && img.width > 0 ==> r == Some(TallBackground(img))
    ensures r.Some? ==> r.value.crop.Inside(r.value.resized)
    ensures r.Some? ==> r.value.crop.Width() == TargetWidth && r.value.crop.Height() == TargetHeight
  {
    if img.height == 0 then None
    else if IsWide(img) then Some(WideBackground(img))
    else if img.width == 0 then None
    else Some(TallBackground(img))
  }

  /** Multiplying both sides of `a <= b` by a non-negative factor. */
  lemma MulMono(a: int, b: int, k: int)
    requires a <= b && 0 <= k
    ensures a * k <= b * k
  {
  }

  /** In the wide branch the scaled width is never below the target width. */
  lemma WideWidth(w: int, h: int, newWidth: int)
    requires 0 < h && 0 <= w && 16 * w > 9 * h
    requires newWidth * h <= TargetHeight * w < (newWidth + 1) * h
    ensures newWidth >= TargetWidth
  {
    assert TargetWidth * h < TargetHeight * w;
    if newWidth < TargetWidth {
      MulMono(newWidth + 1, TargetWidth, h);
    }
  }

  /** In the tall branch the scaled height is never below the target height. */
  lemma TallHeight(w: int, h: int, newHeight: int)
    requires 0 < w && 0 <= h && 16 * w <= 9 * h
    requires newHeight * w <= TargetWidth * h < (newHeight + 1) * w
    ensures newHeight >= TargetHeight
  {
    assert TargetHeight * w <= TargetWidth * h;
    if newHeight < TargetHeight {
      MulMono(newHeight + 1, TargetHeight, w);
    }
  }

  /** The layers of a Short: background, then the title iff non-empty, then the caption iff non-empty. */
  function ShortLayers(title: string, caption: string, duration: real): (r: seq<Layer>)
    ensures |r| == 1 + (if title != "" then 1 else 0) + (if caption != "" then 1 else 0)
    ensures r[0] == BackgroundLayer(Size(TargetWidth, TargetHeight), duration)
    ensures forall i :: 1 <= i < |r| ==> r[i].TextLayer? && r[i].duration == duration
    ensures title != "" ==> r[1].text == title && r[1].fontSize == 80 && r[1].yRel == 0.1
    ensures caption != "" ==> r[|r| - 1].text == caption && r[|r| - 1].fontSize == 50 && r[|r| - 1].yRel == 0.85
  {
    [BackgroundLayer(Size(TargetWidth, TargetHeight), duration)]
    + (if title != "" then [TextLayer(title, 80, "white", 2, Some(1000), 0.1, duration)] else [])
    + (if caption != "" then [TextLayer(caption, 50, "white", 1, Some(900), 0.85, duration)] else [])
  }

  /** The layers of a landscape video: background, then the title iff non-empty, then the artist iff non-empty. */
  function ChillLayers(background: Size, title: string, artist: string, titleSize: int,
                       artistSize: int, textColor: string, duration: real): (r: seq<Layer>)
    ensures |r| == 1 + (if title != "" then 1 else 0) + (if artist != "" then 1 else 0)
    ensures r[0] == BackgroundLayer(background, duration)
    ensures forall i :: 1 <= i < |r| ==> r[i].TextLayer? && r[i].duration == duration && r[i].color == textColor
    ensures title != "" ==> r[1].text == title && r[1].fontSize == titleSize && r[1].yRel == 0.4
    ensures artist != "" ==> r[|r| - 1].text == artist && r[|r| - 1].fontSize == artistSize && r[|r| - 1].yRel == 0.5
  {
    [BackgroundLayer(background, duration)]
    + (if title != "" then [TextLayer(title, titleSize, textColor, 2, None, 0.4, duration)] else [])
    + (if artist != "" then [TextLayer(artist, artistSize, textColor, 1, None, 0.5, duration)] else [])
  }

  /** `ShortsVideoCreator.create_short`. Missing inputs raise before any work;
      every failure inside the rendering step is turned into `false`, and on
      every path through that step the scratch image is removed. */
  function CreateShort(c: Creator, audioPath: string, outputPath: string, title: string,
                       caption: string, maxDuration: real, existing: set<string>,
                       tempBgBefore: bool, media: Media): (r: Run<bool>)
    requires 0.0 <= maxDuration
    requires media.audioDuration.Some? ==> 0.0 <= media.audioDuration.value
    ensures audioPath !in existing ==> r == Run(Raise(FileNotFound(audioPath)), None, tempBgBefore)
    ensures audioPath in existing && c.backgroundPath !in existing ==>
              r == Run(Raise(FileNotFound(c.backgroundPath)), None, tempBgBefore)
    ensures r.result.Raise? <==> audioPath !in existing || c.backgroundPath !in existing
    ensures !r.result.Raise? ==> !r.tempBgExists
    ensures r.result == Return(true) <==> r.video.Some?
    ensures r.result == Return(true) <==>
              && audioPath in existing && c.backgroundPath in existing
              && media.audioDuration.Some? && media.image.Some?
              && media.image.value.width > 0 && media.image.value.height > 0
              && media.writeOk
    ensures r.video.Some? ==>
              var v := r.video.value;
              && v.path == outputPath && v.fps == ShortsFps
              && v.duration == Trim(media.audioDuration.value, maxDuration)
              && v.crop.Some? && v.crop.value.Inside(v.resized)
              && v.crop.value.Width() == TargetWidth && v.crop.value.Height() == TargetHeight
              && v.layers == ShortLayers(title, caption, v.duration)
    // The written frame is the resize and centre crop of the background image.
    ensures r.video.Some? ==>
              && media.image.Some? && ShortsBackground(media.image.value).Some?
              && r.video.value.resized == ShortsBackground(media.image.value).value.resized
              && r.video.value.crop == Some(ShortsBackground(media.image.value).value.crop)
  {
    if audioPath !in existing then Run(Raise(FileNotFound(audioPath)), None, tempBgBefore)
    else if c.backgroundPath !in existing then Run(Raise(FileNotFound(c.backgroundPath)), None, tempBgBefore)
    else
      var failed := Run(Return(false), None, false);
      if media.audioDuration.None? || media.image.None? then failed
      else
        var duration := Trim(media.audioDuration.value, maxDuration);
        match ShortsBackground(media.image.value)
        case Some(bg) =>
          if media.writeOk then
            Run(Return(true),
                Some(Video(outputPath, ShortsFps, duration, bg.resized, Some(bg.crop),
                           ShortLayers(title, caption, duration))),
                false)
          else failed
        case None => failed
  }

  /** `ChillMusicVideoCreator.create_video`. Missing inputs raise before any work;
      a failure inside the rendering step removes the scratch image and re-raises. */
  function CreateVideo(c: Creator, audioPath: string, outputPath: string, title: string,
                       artist: string, width: int, fps: int, titleSize: int, artistSize: int,
                       textColor: string, existing: set<string>, tempBgBefore: bool,
                       media: Media): (r: Run<()>)
    requires media.audioDuration.Some? ==> 0.0 <= media.audioDuration.value
    ensures audioPath !in existing ==> r == Run(Raise(FileNotFound(audioPath)), None, tempBgBefore)
    ensures audioPath in existing && c.backgroundPath !in existing ==>
              r == Run(Raise(FileNotFound(c.backgroundPath)), None, tempBgBefore)
    ensures audioPath in existing && c.backgroundPath in existing ==> !r.tempBgExists
    ensures r.result.Return? <==> r.video.Some?
    ensures r.result.Raise? && audioPath in existing && c.backgroundPath in existing ==>
              r.result.error == RenderError
    // It returns iff both inputs exist, the libraries open them, the image has a
    // width to divide by, both target sides are at least one pixel (the scaled
    // height `floor(h * width / w)` is at least one exactly when `h * width >= w`),
    // and the file is written. Every other failure re-raises.
    ensures r.result.Return? <==>
              && audioPath in existing && c.backgroundPath in existing
              && media.audioDuration.Some? && media.image.Some? && media.image.value.width > 0
              && width >= 1 && media.image.value.height * width >= media.image.value.width
              && media.writeOk
    ensures r.video.Some? ==> media.audioDuration.Some? && media.image.Some? && media.image.value.width > 0
    ensures r.video.Some? && media.image.Some? ==>
              var v := r.video.value; var img := media.image.value;
              && v.path == outputPath && v.fps == fps && v.duration == media.audioDuration.value
              && v.resized.width == width
              && v.resized.height * img.width <= img.height * width < (v.resized.height + 1) * img.width
              && v.crop.None?
              && v.layers == ChillLayers(v.resized, title, artist, titleSize, artistSize, textColor, v.duration)
  {
    if audioPath !in existing then Run(Raise(FileNotFound(audioPath)), None, tempBgBefore)
    else if c.backgroundPath !in existing then Run(Raise(FileNotFound(c.backgroundPath)), None, tempBgBefore)
    else
      var failed := Run(Raise(RenderError), None, false);
      if media.audioDuration.None? || media.image.None? then failed
      else
        var d := media.audioDuration.value;
        var img := media.image.value;
        if img.width == 0 then failed
        else
          var height := IntOfQuotient(img.height * width, img.width);
          // The imaging library refuses to resize to an empty size.
          if width < 1 || height < 1 || !media.writeOk then failed
          else
            var resized := Size(width, height);
            Run(Return(()),
                Some(Video(outputPath, fps, d, resized, None,
                           ChillLayers(resized, title, artist, titleSize, artistSize, textColor, d))),
                false)
  }
}

=== FILE: video_effects.dfy ===
/**
  `VideoEffects` of video_effects.py. A clip is abstracted to the source it
  came from and the trace of library filters applied to it, so that the order,
  the skipping and the parameters of `apply_effects` can be stated. The
  filters' image arithmetic is not modelled.
 */
module VideoEffects {

  /** A Python value found in an effect's parameter dictionary. */
  datatype Value = VNone | VBool(b: bool) | VInt(i: int) | VReal(r: real) | VStr(s: string)

  /** Python truthiness of a parameter value. */
  predicate Truthy(v: Value) {
    match v
    case VNone => false
    case VBool(b) => b
    case VInt(i) => i != 0
    case VReal(r) => r != 0.0
    case VStr(s) => s != ""
  }

  type Params = map<string, Value>

  /** `params.get(key, default)`. */
  function Get(params: Params, key: string, default: Value): Value {
    if key in params then params[key] else default
  }

  /** One library filter applied to a clip, with the parameters it was given. */
  datatype Op =
    | FadeOut(duration: Value)
    | FadeIn(duration: Value)
    | Zoom(factor: Value)
    | Blur(sigma: Value)
    | Brightness(factor: Value)
    | Vignette(size: Value)
    | Mirror
    | ColorTint(color: Value, intensity: Value)
    | Wave(wavelength: Value, amplitude: Value)

  /** A clip: where it came from and the filters applied to it, oldest first. */
  datatype Clip = Clip(source: string, trace: seq<Op>)

  function Apply(clip: Clip, ops: seq<Op>): Clip {
    clip.(trace := clip.trace + ops)
  }

  /** `apply_fade`: fade out, then fade in, both with the same duration. */
  function ApplyFade(clip: Clip, duration: Value): (r: Clip)
    ensures r.source == clip.source
    ensures |r.trace| == |clip.trace| + 2 && r.trace[..|clip.trace|] == clip.trace
    ensures r.trace[|clip.trace|] == FadeOut(duration) && r.trace[|clip.trace| + 1] == FadeIn(duration)
  {
    Apply(clip, [FadeOut(duration), FadeIn(duration)])
  }

  /** `get_available_effects`: effect name to description. */
  function AvailableEffects(): map<string, string> {
    map[
      "fade" := "Add fade in/out effect",
      "zoom" := "Slow zoom effect",
      "blur" := "Blur effect",
      "brightness" := "Adjust brightness",
      "vignette" := "Vignette effect",
      "mirror" := "Mirror effect",
      "color" := "Color tint effect",
      "wave" := "Wave distortion effect"
    ]
  }

  /** An entry runs only when its `enabled` parameter is truthy; absent counts as false. */
  predicate Enabled(params: Params) {
    Truthy(Get(params, "enabled", VBool(false)))
  }

  /** One round of the dispatch loop of `apply_effects`: the `if`/`elif` chain. */
  function Dispatch(clip: Clip, effect: string, params: Params): Clip {
    if effect == "fade" && Enabled(params) then
      ApplyFade(clip, Get(params, "duration", VReal(1.0)))
    else if effect == "zoom" && Enabled(params) then
      Apply(clip, [Zoom(Get(params, "factor", VReal(1.3)))])
    else if effect == "blur" && Enabled(params) then
      Apply(clip, [Blur(Get(params, "sigma", VInt(3)))])
    else if effect == "brightness" && Enabled(params) then
      Apply(clip, [Brightness(Get(params, "factor", VReal(1.2)))])
    else if effect == "vignette" && Enabled(params) then
      Apply(clip, [Vignette(Get(params, "size", VReal(0.8)))])
    else if effect == "mirror" && Enabled(params) then
      Apply(clip, [Mirror])
    else if effect == "color" && Enabled(params) then
      Apply(clip, [ColorTint(Get(params, "color", VStr("blue")), Get(params, "intensity", VReal(0.3)))])
    else if effect == "wave" && Enabled(params) then
      Apply(clip, [Wave(Get(params, "wavelength", VInt(20)), Get(params, "amplitude", VInt(10)))])
    else
      clip
  }

  // ----- Reference description: a table of parameters and defaults -----

  /** For each effect, the parameters it reads and their defaults, in call order. */
  function ParamDefaults(): map<string, seq<(string, Value)>> {
    map[
      "fade" := [("duration", VReal(1.0))],
      "zoom" := [("factor", VReal(1.3))],
      "blur" := [("sigma", VInt(3))],
      "brightness" := [("factor", VReal(1.2))],
      "vignette" := [("size", VReal(0.8))],
      "mirror" := [],
      "color" := [("color", VStr("blue")), ("intensity", VReal(0.3))],
      "wave" := [("wavelength", VInt(20)), ("amplitude", VInt(10))]
    ]
  }

  /** A selected effect with its parameters resolved. */
  datatype Effect = Effect(name: string, args: seq<Value>)

  /** The arguments an effect receives: each parameter it reads, or its default. */
  function Resolve(params: Params, keys: seq<(string, Value)>): (args: seq<Value>)
    ensures |args| == |keys|
    ensures forall i :: 0 <= i < |keys| ==>
              args[i] == (if keys[i].0 in params then params[keys[i].0] else keys[i].1)
  {
    seq(|keys|, i requires 0 <= i < |keys| => Get(params, keys[i].0, keys[i].1))
  }

  /** The effects a configuration asks for: known names with `enabled` truthy, in order. */
  function Requested(config: seq<(string, Params)>): seq<Effect> {
    if config == [] then []
    else
      var (name, params) := config[0];
      (if name in ParamDefaults() && Enabled(params)
       then [Effect(name, Resolve(params, ParamDefaults()[name]))] else [])
      + Requested(config[1..])
  }

  /** The filters one selected effect puts on a clip. */
  function Expand(e: Effect): seq<Op> {
    var a := e.args;
    if e.name == "fade" && |a| == 1 then [FadeOut(a[0]), FadeIn(a[0])]
    else if e.name == "zoom" && |a| == 1 then [Zoom(a[0])]
    else if e.name == "blur" && |a| == 1 then [Blur(a[0])]
    else if e.name == "brightness" && |a| == 1 then [Brightness(a[0])]
    else if e.name == "vignette" && |a| == 1 then [Vignette(a[0])]
    else if e.name == "mirror" && |a| == 0 then [Mirror]
    else if e.name == "color" && |a| == 2 then [ColorTint(a[0], a[1])]
    else if e.name == "wave" && |a| == 2 then [Wave(a[0], a[1])]
    else []
  }

  function ExpandAll(es: seq<Effect>): seq<Op> {
    if es == [] then [] else Expand(es[0]) + ExpandAll(es[1..])
  }

  // ----- Properties -----

  /** The names `get_available_effects` lists are exactly the names with a parameter table. */
  lemma AvailableMatchesTable()
    ensures AvailableEffects().Keys == ParamDefaults().Keys
  {
  }

  /** An enabled entry with a known name applies exactly the filters of its resolved effect. */
  lemma DispatchEnabled(clip: Clip, effect: string, params: Params)
    requires effect in ParamDefaults() && Enabled(params)
    ensures Dispatch(clip, effect, params) == Apply(clip, Expand(Effect(effect, Resolve(params, ParamDefaults()[effect]))))
  {
    var args := Resolve(params, ParamDefaults()[effect]);
    if effect == "fade" {
      assert args == [Get(params, "duration", VReal(1.0))];
    } else if effect == "zoom" {
      assert args == [Get(params, "factor", VReal(1.3))];
    } else if effect == "blur" {
      assert args == [Get(params, "sigma", VInt(3))];
    } else if effect == "brightness" {
      assert args == [Get(params, "factor", VReal(1.2))];
    } else if effect == "vignette" {
      assert args == [Get(params, "size", VReal(0.8))];
    } else if effect == "mirror" {
      assert args == [];
    } else if effect == "color" {
      assert args == [Get(params, "color", VStr("blue")), Get(params, "intensity", VReal(0.3))];
    } else {
      assert effect == "wave";
      assert args == [Get(params, "wavelength", VInt(20)), Get(params, "amplitude", VInt(10))];
    }
  }

  /** One dispatch round adds exactly the filters of the entry's requested effect, if any. */
  lemma DispatchMatchesTable(clip: Clip, effect: string, params: Params)
    ensures Dispatch(clip, effect, params) == Apply(clip, ExpandAll(Requested([(effect, params)])))
  {
    var rest: seq<(string, Params)> := [];
    assert [(effect, params)][1..] == rest;
    if effect in ParamDefaults() && Enabled(params) {
      var e := Effect(effect, Resolve(params, ParamDefaults()[effect]));
      assert Requested([(effect, params)]) == [e];
      assert ExpandAll([e]) == Expand(e) + ExpandAll([e][1..]);
      assert ExpandAll([e]) == Expand(e);
      DispatchEnabled(clip, effect, params);
    } else {
      assert Requested([(effect, params)]) == [];
    }
  }

  /** A name can change a clip iff `get_available_effects` lists it. */
  lemma DispatchableIffAvailable(clip: Clip, effect: string)
    ensures effect in AvailableEffects() <==>
              Dispatch(clip, effect, map["enabled" := VBool(true)]) != clip
    ensures effect !in AvailableEffects() ==>
              forall params :: Dispatch(clip, effect, params) == clip
  {
    var on := map["enabled" := VBool(true)];
    assert Enabled(on);
    if effect in AvailableEffects() {
      assert |Dispatch(clip, effect, on).trace| > |clip.trace|;
    }
  }

  lemma {:induction false} RequestedAppend(a: seq<(string, Params)>, b: seq<(string, Params)>)
    ensures Requested(a + b) == Requested(a) + Requested(b)
  {
    if a == [] {
      assert a + b == b;
    } else {
      assert (a + b)[1..] == a[1..] + b;
      RequestedAppend(a[1..], b);
    }
  }

  lemma {:induction false} ExpandAllAppend(a: seq<Effect>, b: seq<Effect>)
    ensures ExpandAll(a + b) == ExpandAll(a) + ExpandAll(b)
  {
    if a == [] {
      assert a + b == b;
    } else {
      assert (a + b)[1..] == a[1..] + b;
      ExpandAllAppend(a[1..], b);
    }
  }

  /** Disabled entries and unknown names can be removed from a configuration
      without changing what it asks for. */
  lemma {:induction false} SkippedEntryIrrelevant(a: seq<(string, Params)>, name: string,
                                                  params: Params, b: seq<(string, Params)>)
    requires name !in AvailableEffects() || !Enabled(params)
    ensures Requested(a + [(name, params)] + b) == Requested(a + b)
  {
    RequestedAppend(a + [(name, params)], b);
    RequestedAppend(a, [(name, params)]);
    RequestedAppend(a, b);
    var rest: seq<(string, Params)> := [];
    assert [(name, params)][1..] == rest;
    assert Requested([(name, params)]) == [];
  }

  /** One more entry of the configuration extends the trace by that entry's filters. */
  lemma DispatchStep(start: seq<Op>, config: seq<(string, Params)>, i: nat, trace: seq<Op>)
    requires i < |config|
    requires trace == start + ExpandAll(Requested(config[..i])) + ExpandAll(Requested([config[i]]))
    ensures trace == start + ExpandAll(Requested(config[..i + 1]))
  {
    assert config[..i + 1] == config[..i] + [config[i]];
    RequestedAppend(config[..i], [config[i]]);
    ExpandAllAppend(Requested(config[..i]), Requested([config[i]]));
    AppendAssoc(start, ExpandAll(Requested(config[..i])), ExpandAll(Requested([config[i]])));
  }

  lemma AppendAssoc<T>(a: seq<T>, b: seq<T>, c: seq<T>)
    ensures a + b + c == a + (b + c)
  {
  }

  /** One round of the loop of `apply_effects`, for one configuration entry. */
  method DispatchEntry(clip: Clip, entry: (string, Params)) returns (result: Clip)
    ensures result == Dispatch(clip, entry.0, entry.1)
    ensures result.source == clip.source
    ensures result.trace == clip.trace + ExpandAll(Requested([entry]))
  {
    result := Dispatch(clip, entry.0, entry.1);
    DispatchMatchesTable(clip, entry.0, entry.1);
  }

  /** `apply_effects`: fold the configuration, in order, over the clip. */
  method ApplyEffects(clip: Clip, config: seq<(string, Params)>) returns (result: Clip)
    ensures result.source == clip.source
    ensures result.trace == clip.trace + ExpandAll(Requested(config))
    ensures config == [] ==> result == clip
  {
    result := clip;
    for i := 0 to |config|
      invariant result.source == clip.source
      invariant result.trace == clip.trace + ExpandAll(Requested(config[..i]))
    {
      result := DispatchEntry(result, config[i]);
      DispatchStep(clip.trace, config, i, result.trace);
    }
    assert config[..|config|] == config;
  }

  /** With no parameters but `enabled`, every effect runs with its documented defaults. */
  lemma DefaultsOfEnabledEffects(clip: Clip)
    ensures var on := map["enabled" := VBool(true)];
      && Dispatch(clip, "fade", on).trace == clip.trace + [FadeOut(VReal(1.0)), FadeIn(VReal(1.0))]
      && Dispatch(clip, "zoom", on).trace == clip.trace + [Zoom(VReal(1.3))]
      && Dispatch(clip, "blur", on).trace == clip.trace + [Blur(VInt(3))]
      && Dispatch(clip, "brightness", on).trace == clip.trace + [Brightness(VReal(1.2))]
      && Dispatch(clip, "vignette", on).trace == clip.trace + [Vignette(VReal(0.8))]
      && Dispatch(clip, "mirror", on).trace == clip.trace + [Mirror]
      && Dispatch(clip, "color", on).trace == clip.trace + [ColorTint(VStr("blue"), VReal(0.3))]
      && Dispatch(clip, "wave", on).trace == clip.trace + [Wave(VInt(20), VInt(10))]
  {
  }
}

=== FILE: wrappers.dfy ===
/** Small failure-carrying datatypes shared by the other modules. */
module Wrappers {

  /** A value that may be absent: Python's `None` versus a present value. */
  datatype Option<+T> = None | Some(value: T) {

    /** The present value, or `default` when absent. */
    function GetOr(default: T): T {
      match this
      case Some(v) => v
      case None => default
    }
  }

  /** How a Python call ends: by returning a value or by raising an exception. */
  datatype Exit<+T, +E> = Return(value: T) | Raise(error: E) {
    /** Lets `:-` propagate an exception the way Python does. */
    predicate IsFailure() {
      Raise?
    }

    function PropagateFailure<U>(): Exit<U, E>
      requires Raise?
    {
      Raise(error)
    }

    function Extract(): T
      requires Return?
    {
      value
    }
  }

  /** Python's `x or default` for an optional string: `None` and `""` are both falsy. */
  function OrElse(x: Option<string>, default: string): (r: string)
    ensures x.Some? && x.value != "" ==> r == x.value
    ensures x.None? || x.value == "" ==> r == default
  {
    if x.Some? && x.value != "" then x.value else default
  }
}

=== FILE: youtube_uploader.dfy ===
/**
  `YouTubeUploader` of youtube_uploader.py: the request it builds for a
  resumable upload, the chunk loop that drives the upload, and the projection
  of a video's processing status. The cloud SDK is an oracle: a finite
  sequence of chunk outcomes for an upload, a response document (or a failure)
  for a status query, and a success flag for authentication.
 */
module YouTubeUploader {
  import opened Wrappers
  import opened Paths

  /** A JSON document as the SDK hands it back. */
  datatype Json = JNull | JBool(b: bool) | JInt(i: int) | JStr(s: string)
                | JArr(items: seq<Json>) | JObj(fields: map<string, Json>)

  /** Python truthiness of a decoded JSON value. */
  predicate Truthy(j: Json) {
    match j
    case JNull => false
    case JBool(b) => b
    case JInt(i) => i != 0
    case JStr(s) => s != ""
    case JArr(items) => items != []
    case JObj(fields) => fields != map[]
  }

  /** The uploader object: whether `self.youtube` holds an authenticated client. */
  datatype Uploader = Uploader(hasClient: bool)

  /** Exceptions `upload_video` lets escape. */
  datatype Error =
    | FileNotFound(path: string)
    /** `authenticate` failed (missing client secrets, refused consent, ...). */
    | AuthError
    /** An HTTP error from the API that is not retried. */
    | HttpError(status: int)
    /** Any other exception raised by the SDK while sending a chunk. */
    | TransportError

  datatype Snippet = Snippet(title: string, description: string, tags: seq<string>, categoryId: string)
  datatype Status = Status(privacyStatus: string, selfDeclaredMadeForKids: bool, notifySubscribers: bool)
  datatype Body = Body(snippet: Snippet, status: Status)

  /** The media half of the request: a single-chunk (`chunksize=-1`), resumable upload. */
  datatype Media = Media(path: string, chunkSize: int, resumable: bool)
  datatype InsertRequest = InsertRequest(part: string, body: Body, media: Media)

  /** The server errors on which a chunk is sent again. */
  const TransientStatuses: seq<int> := [500, 502, 503, 504]

  /** The request body of `upload_video`; a missing tag list becomes the empty list. */
  function RequestBody(title: string, description: string, tags: Option<seq<string>>,
                       privacyStatus: string, category: string, notifySubscribers: bool): Body
  {
    Body(Snippet(title, description, tags.GetOr([]), category),
         Status(privacyStatus, false, notifySubscribers))
  }

  /** The body as the JSON object that is sent, keys in insertion order. */
  function BodyKeys(): seq<string> { ["snippet", "status"] }

  function BodyJson(b: Body): (j: Json)
    ensures j.JObj? && j.fields.Keys == set k | k in BodyKeys()
  {
    var s := b.snippet;
    var t := b.status;
    JObj(map[
      "snippet" := JObj(map[
        "title" := JStr(s.title),
        "description" := JStr(s.description),
        "tags" := JArr(seq(|s.tags|, i requires 0 <= i < |s.tags| => JStr(s.tags[i]))),
        "categoryId" := JStr(s.categoryId)]),
      "status" := JObj(map[
        "privacyStatus" := JStr(t.privacyStatus),
        "selfDeclaredMadeForKids" := JBool(t.selfDeclaredMadeForKids),
        "notifySubscribers" := JBool(t.notifySubscribers)])])
  }

  /** The `part` argument: the body's keys joined by commas. */
  function Part(): string { JoinWith(",", BodyKeys()) }

  /** The request carries exactly the caller's fields, with the made-for-kids flag
      always false and `part` naming every top-level key of the body. */
  lemma RequestShape(title: string, description: string, tags: Option<seq<string>>,
                     privacyStatus: string, category: string, notifySubscribers: bool)
    ensures var b := RequestBody(title, description, tags, privacyStatus, category, notifySubscribers);
      && BodyJson(b).fields["snippet"].fields["title"] == JStr(title)
      && BodyJson(b).fields["snippet"].fields["description"] == JStr(description)
      && BodyJson(b).fields["snippet"].fields["categoryId"] == JStr(category)
      && (tags.None? ==> BodyJson(b).fields["snippet"].fields["tags"] == JArr([]))
      && (tags.Some? ==>
            var sent := BodyJson(b).fields["snippet"].fields["tags"];
            sent.JArr? && |sent.items| == |tags.value| &&
            forall i :: 0 <= i < |tags.value| ==> sent.items[i] == JStr(tags.value[i]))
      && BodyJson(b).fields["status"].fields["selfDeclaredMadeForKids"] == JBool(false)
      && BodyJson(b).fields["status"].fields["privacyStatus"] == JStr(privacyStatus)
      && BodyJson(b).fields["status"].fields["notifySubscribers"] == JBool(notifySubscribers)
    ensures Part() == "snippet,status"
  {
    assert JoinWith(",", ["snippet", "status"]) == "snippet" + "," + JoinWith(",", ["status"]);
  }

  // ----- The chunk loop -----

  /** What one `next_chunk()` call does. */
  datatype Chunk =
    /** Returned no response yet: more of the file remains to be sent. */
    | InProgress
    /** Returned the finished upload's resource document. */
    | Done(response: map<string, Json>)
    /** Raised an HTTP error with this status. */
    | Failed(status: int)
    /** Raised some other exception. */
    | Broken

  /** A chunk outcome after which the loop simply calls `next_chunk()` again. */
  predicate Skippable(c: Chunk) {
    c.InProgress? || (c.Failed? && c.status in TransientStatuses)
  }

  /** How a chunk that ends the loop ends it. */
  function Decide(c: Chunk): Exit<map<string, Json>, Error>
    requires !Skippable(c)
  {
    match c
    case Done(response) => Return(response)
    case Failed(status) => Raise(HttpError(status))
    case Broken => Raise(TransportError)
  }

  /** The loop's state after the given outcomes: finished, or still sending. */
  datatype LoopEnd = Finished(exit: Exit<map<string, Json>, Error>) | StillSending

  /** The `while response is None` loop of `upload_video`, run over a finite
      sequence of chunk outcomes. `calls` counts the `next_chunk()` calls. */
  method ChunkLoop(chunks: seq<Chunk>) returns (r: LoopEnd, calls: nat)
    ensures calls <= |chunks|
    ensures r.StillSending? ==> calls == |chunks|
    ensures r.StillSending? <==> forall j :: 0 <= j < |chunks| ==> Skippable(chunks[j])
    ensures r.Finished? ==>
              && 0 < calls
              && (forall j :: 0 <= j < calls - 1 ==> Skippable(chunks[j]))
              && !Skippable(chunks[calls - 1])
              && r.exit == Decide(chunks[calls - 1])
  {
    calls := 0;
    while calls < |chunks|
      invariant calls <= |chunks|
      invariant forall j :: 0 <= j < calls ==> Skippable(chunks[j])
    {
      var c := chunks[calls];
      calls := calls + 1;
      match c {
        case InProgress =>
        case Done(response) =>
          r := Finished(Return(response));
          return;
        case Failed(status) =>
          if status !in TransientStatuses {
            r := Finished(Raise(HttpError(status)));
            return;
          }
        case Broken =>
          r := Finished(Raise(TransportError));
          return;
      }
    }
    r := StillSending;
  }

  /** There is no retry bound: however many server errors in a row the SDK
      reports, the loop is still sending after all of them. */
  method TransientErrorsNeverEnd(n: nat, status: int) returns (r: LoopEnd)
    requires status in TransientStatuses
    ensures r == StillSending
  {
    var calls;
    r, calls := ChunkLoop(seq(n, _ => Failed(status)));
  }

  /** What one `upload_video` call did. */
  datatype Upload = Upload(
    end: LoopEnd,
    /** Whether `authenticate` was called. */
    authenticated: bool,
    /** The insert request, when one was built. */
    request: Option<InsertRequest>,
    /** The uploader object afterwards. */
    uploader: Uploader)

  /** `upload_video`. The file check comes first; authentication happens only
      without a client; then the request is built and the chunk loop run. */
  method UploadVideo(u: Uploader, filePath: string, title: string, description: string,
                     tags: Option<seq<string>>, privacyStatus: string, category: string,
                     notifySubscribers: bool, existing: set<string>, authOk: bool,
                     chunks: seq<Chunk>) returns (r: Upload)
    ensures filePath !in existing ==>
              r == Upload(Finished(Raise(FileNotFound(filePath))), false, None, u)
    ensures r.authenticated <==> filePath in existing && !u.hasClient
    ensures r.request.Some? <==> filePath in existing && (u.hasClient || authOk)
    ensures r.authenticated && !authOk ==> r.end == Finished(Raise(AuthError)) && r.uploader == u
    ensures r.request.Some? ==>
              && r.uploader.hasClient
              && r.request.value.part == "snippet,status"
              && r.request.value.media == Media(filePath, -1, true)
              && r.request.value.body.snippet.title == title
              && r.request.value.body.snippet.description == description
              && r.request.value.body.snippet.tags == (if tags.Some? then tags.value else [])
              && r.request.value.body.snippet.categoryId == category
              && r.request.value.body.status ==
                   Status(privacyStatus, false, notifySubscribers)
    ensures r.request.Some? ==>
              (r.end.StillSending? <==> forall j :: 0 <= j < |chunks| ==> Skippable(chunks[j]))
    ensures r.request.Some? && r.end.Finished? ==>
              exists k :: 0 <= k < |chunks| && !Skippable(chunks[k]) && r.end.exit == Decide(chunks[k]) &&
                          forall j :: 0 <= j < k ==> Skippable(chunks[j])
  {
    if filePath !in existing {
      return Upload(Finished(Raise(FileNotFound(filePath))), false, None, u);
    }
    var authenticated := false;
    if !u.hasClient {
      authenticated := true;
      if !authOk {
        return Upload(Finished(Raise(AuthError)), true, None, u);
      }
    }
    var body := RequestBody(title, description, tags, privacyStatus, category, notifySubscribers);
    RequestShape(title, description, tags, privacyStatus, category, notifySubscribers);
    var request := InsertRequest(Part(), body, Media(filePath, -1, true));
    var end, calls := ChunkLoop(chunks);
    if end.Finished? {
      assert !Skippable(chunks[calls - 1]);
    }
    return Upload(end, authenticated, Some(request), Uploader(true));
  }

  // ----- Processing status -----

  /** Python exceptions the status projection can run into. */
  datatype PyError = KeyError(key: string) | IndexError | TypeError | AttributeError | ApiError

  /** `j[key]` on a decoded JSON value. */
  function Subscript(j: Json, key: string): (r: Exit<Json, PyError>)
    ensures r.Return? <==> j.JObj? && key in j.fields
  {
    match j
    case JObj(fields) => if key in fields then Return(fields[key]) else Raise(KeyError(key))
    case _ => Raise(TypeError)
  }

  /** `j[0]` on a decoded JSON value. */
  function First(j: Json): Exit<Json, PyError> {
    match j
    case JArr(items) => if items != [] then Return(items[0]) else Raise(IndexError)
    case JStr(s) => if s != "" then Return(JStr(s[..1])) else Raise(IndexError)
    case JObj(_) => Raise(KeyError("0"))
    case _ => Raise(TypeError)
  }

  /** `j.get(key, default)`: only dictionaries have `get`. */
  function DictGet(j: Json, key: string, default: Json): (r: Exit<Json, PyError>)
    ensures r.Return? <==> j.JObj?
  {
    match j
    case JObj(fields) => Return(if key in fields then fields[key] else default)
    case _ => Raise(AttributeError)
  }

  /** The result of `get_upload_progress`. */
  datatype Progress =
    /** The query matched no video: `None`. */
    | NoVideo
    /** `{"error": str(e)}` for any exception `e`. */
    | ErrorReport(error: PyError)
    /** The four-field projection. */
    | Report(uploadStatus: Json, privacyStatus: Json, processingStatus: Json, processingProgress: Json)

  /** The body of the `try` once the list call has answered. */
  function Project(response: Json): Exit<Progress, PyError> {
    var items :- Subscript(response, "items");
    if !Truthy(items) then Return(NoVideo)
    else
      var item :- First(items);
      var status :- Subscript(item, "status");
      var processing :- DictGet(item, "processingDetails", JObj(map[]));
      var uploadStatus :- Subscript(status, "uploadStatus");
      var privacyStatus :- Subscript(status, "privacyStatus");
      var processingStatus :- DictGet(processing, "processingStatus", JNull);
      var processingProgress :- DictGet(processing, "processingProgress", JObj(map[]));
      Return(Report(uploadStatus, privacyStatus, processingStatus, processingProgress))
  }

  /** A list response with no matching video: `items` is present and falsy. */
  predicate NoItems(response: Json) {
    response.JObj? && "items" in response.fields && !Truthy(response.fields["items"])
  }

  /** A list response the projection reads without raising: a non-empty `items`
      array whose first element is an object with a `status` object holding
      `uploadStatus` and `privacyStatus`, and a `processingDetails` that is an
      object when present. */
  predicate WellFormed(response: Json) {
    && response.JObj? && "items" in response.fields
    && var items := response.fields["items"];
    && items.JArr? && items.items != [] && items.items[0].JObj?
    && var item := items.items[0].fields;
    && "status" in item && item["status"].JObj?
    && "uploadStatus" in item["status"].fields && "privacyStatus" in item["status"].fields
    && ("processingDetails" in item ==> item["processingDetails"].JObj?)
  }

  /** `get_upload_progress`. `listResponse` is what `videos().list(...).execute()`
      returns, or None when it raises. Without a client the call fails on
      `self.youtube` being None. Nothing escapes: every exception becomes a report. */
  function GetUploadProgress(u: Uploader, listResponse: Option<Json>): (r: Progress)
    ensures !u.hasClient ==> r == ErrorReport(AttributeError)
    ensures u.hasClient && listResponse.None? ==> r == ErrorReport(ApiError)
    ensures r == NoVideo <==> u.hasClient && listResponse.Some? && NoItems(listResponse.value)
    // A report comes back exactly for a well-formed response; any other
    // response (a missing key, a wrong type, an empty status) is an error report.
    ensures r.Report? <==> u.hasClient && listResponse.Some? && WellFormed(listResponse.value)
    ensures r.ErrorReport? <==>
              !u.hasClient || listResponse.None? ||
              (!WellFormed(listResponse.value) && !NoItems(listResponse.value))
  {
    if !u.hasClient then ErrorReport(AttributeError)
    else if listResponse.None? then ErrorReport(ApiError)
    else
      match Project(listResponse.value)
      case Return(p) => p
      case Raise(e) => ErrorReport(e)
  }

  /** A matching video without a `status` field: the lookup's KeyError is
      reported, not a projection. */
  lemma ItemWithoutStatusIsError()
    ensures GetUploadProgress(Uploader(true), Some(JObj(map["items" := JArr([JObj(map[])])])))
              == ErrorReport(KeyError("status"))
  {
    var items := JArr([JObj(map[])]);
    assert Truthy(items);
    assert First(items) == Return(JObj(map[]));
  }

  /** For any well-formed response the report is the first item's status fields,
      with the processing fields taken from `processingDetails` or defaulted. */
  lemma ProgressOfWellFormedResponse(response: Json)
    requires WellFormed(response)
    ensures var item := response.fields["items"].items[0].fields;
      var status := item["status"].fields;
      var r := GetUploadProgress(Uploader(true), Some(response));
      && r.Report?
      && r.uploadStatus == status["uploadStatus"]
      && r.privacyStatus == status["privacyStatus"]
      && ("processingDetails" !in item ==>
            r.processingStatus == JNull && r.processingProgress == JObj(map[]))
      && ("processingDetails" in item ==>
            var d := item["processingDetails"].fields;
            && r.processingStatus == (if "processingStatus" in d then d["processingStatus"] else JNull)
            && r.processingProgress == (if "processingProgress" in d then d["processingProgress"] else JObj(map[])))
  {
    var items := response.fields["items"];
    assert Truthy(items);
    assert First(items) == Return(items.items[0]);
  }
}
